=== FILE: README.md ===
# Sokomjinga prediction-market API: a Dafny model of its core

This project models the core of the `sokomjinga-api` service. The service is a
FastAPI application that stores prediction markets, each with Yes/No style
outcomes.

The model covers:

- the markets router (`app/api/markets.py`): list, get, create, update and
  delete of markets, and add, update and delete of a market's outcomes,
  together with the `market_to_dict` and `outcome_to_dict` JSON projections;
- the row rules of `app/db/models.py`: primary key, required columns, the
  `status` default and the uuid key default;
- the two seed scripts: `scripts/seed_markets.py` adds the fixed titles that
  are missing, and `scripts/seed_outcomes.py` gives every market without
  outcomes a ("Yes", 6) / ("No", 94) pair;
- the composition root `app/main.py`: how the `CORS_ORIGINS` setting is turned
  into an allow-list, when the CORS middleware is installed, and the link
  directory served at `/`.

Both database tables are one immutable `Models.Store` value: a map per table,
keyed by primary key, plus the server clock that `func.now()` reads. Each
handler is a pure function from a store and a request to a `Markets.Reply`,
which holds the result the client sees (`Ok`, `NotFound` = 404 or
`BadRequest` = 400, with the handler's message) and the store after the
request. Every error is raised before `db.commit()`, so an error reply carries
the store it was given. A request body is a `Payloads.Payload`, a map from key
to `Option<string>`. A missing key, an explicit null and a string are three
distinct cases. This is the distinction the update handlers draw with
`"key" in payload`.

Python's `str.strip()` is `Text.Strip`, over the code points for which
`str.isspace()` holds. `str.split(",")` is `Text.Split`.
`datetime.fromisoformat` is a parameter `parse: string -> Option<DateTime>`,
which returns `None` where Python raises.

Modules, one file each:

- `Wrappers`: `Option`.
- `Text`: strip, split and join.
- `Models`: rows, the store, its integrity predicate `Valid`, and fresh keys.
- `Payloads`: `dict.get`, truthiness, and the strip-and-default rules.
- `Markets`: the handlers and views.
- `MarketsProps`: lemmas that relate several handlers.
- `Seeds`: the seed scripts.
- `App`: CORS parsing and the root directory.

## Model

| member | source | states |
|---|---|---|
| Markets.MarketToDict | app/api/markets.py:13-35 | The view carries every column of the market unchanged. Its `outcomes` are exactly the outcomes whose `market_id` is the market's id, each shown with its own columns. |
| Markets.OutcomeToDict | app/api/markets.py:38-47 | The view carries every column of the outcome unchanged; `OutcomeOf` takes the view back to the row. |
| Markets.GetMarket | app/api/markets.py:56-61 | 404 "Market not found" exactly when the id is not stored, never 400. Otherwise the reply is the stored market with exactly the outcomes it owns, each shown with its own columns. |
| Markets.ListMarkets | app/api/markets.py:50-53 | Every stored market appears exactly once, as its `market_to_dict` view, ordered by `created_at` descending. |
| Markets.NewestFirst | app/api/markets.py:52 | `ORDER BY created_at DESC`: a repeat-free enumeration of all the keys, with non-increasing `created_at`. |
| Markets.CloseAt | app/api/markets.py:80-86 | A truthy `close_at` is parsed, and a value that does not parse gives 400 "close_at must be ISO8601". A null or empty value gives null. |
| Markets.CreateMarket | app/api/markets.py:64-93 | 400 exactly when the title is missing, null or blank, or `close_at` does not parse. On success it inserts one market under a fresh key and nothing else changes. The title is stripped, the nullable fields are copied, the status is `(status or "open").strip()`, both stamps are the clock, and a later GET returns the same view. |
| Markets.PatchRequired | app/api/markets.py:102-106 | A required text column under an update: kept when the key is absent, rejected exactly when the key is present and blank, and otherwise the stripped value, non-empty with no white space at either end. The same rule serves `label` at 183-187. |
| Markets.PatchStatus | app/api/markets.py:127-128 | `status` under an update: kept when the key is absent or its value is blank, and otherwise the stripped value. The same rule serves outcomes at 192-193. |
| Markets.PatchNullable | app/api/markets.py:108-115 | A nullable column under an update: set to `payload.get(key)` when the key is present, null included, and kept when it is absent. |
| Markets.PatchMarket | app/api/markets.py:102-128 | 400 exactly when the payload holds a blank `title` or an unparsable `close_at`. Otherwise each key present sets its column by its rule, every absent key leaves its column alone, and a blank `status` keeps the old one. |
| Markets.UpdateMarket | app/api/markets.py:96-133 | 404 exactly when the id is unknown; the 404 is checked before any 400. 400 exactly when the patch is rejected. Only that market changes, and it changes as `PatchMarket` describes; an error leaves the store unchanged. The reply is what a later GET of the market returns, its outcomes included. |
| Markets.DeleteMarket | app/api/markets.py:136-143 | 404 exactly when the id is unknown. Otherwise that market and exactly its outcomes are removed; every other market and outcome is kept unchanged. |
| Markets.AddOutcome | app/api/markets.py:149-168 | 404 exactly when the market is unknown. 400 "label is required" exactly when the label is blank. Otherwise one outcome is inserted under a fresh key for that market, with the stripped label, the given price, the create-style status and the clock. |
| Markets.PatchOutcome | app/api/markets.py:183-193 | 400 exactly when the payload holds a blank `label`. Otherwise `label` and `status` follow the same rules as for markets, and a `price_cents` key present is copied even when null. |
| Markets.UpdateOutcome | app/api/markets.py:171-198 | 404 "Outcome not found" exactly when no outcome with that id belongs to that market. 400 exactly for a blank label. Only that outcome changes, as `PatchOutcome` describes. |
| Markets.DeleteOutcome | app/api/markets.py:201-214 | 404 exactly when no outcome with that id belongs to that market. Otherwise exactly that outcome is removed. |
| MarketsProps.CreateMarketValid | app/api/markets.py:64-93 | Creating a market keeps the store's integrity rules: rows under their own key, non-blank required text, and every outcome's market present. |
| MarketsProps.UpdateMarketValid | app/api/markets.py:96-133 | Updating a market keeps the store's integrity rules. |
| MarketsProps.DeleteMarketValid | app/api/markets.py:136-143 | Deleting a market keeps the integrity rules: no outcome is left pointing at the removed market. |
| MarketsProps.AddOutcomeValid | app/api/markets.py:149-168 | Adding an outcome keeps the integrity rules. |
| MarketsProps.UpdateOutcomeValid | app/api/markets.py:171-198 | Updating an outcome keeps the integrity rules. |
| MarketsProps.DeleteOutcomeValid | app/api/markets.py:201-214 | Deleting an outcome keeps the integrity rules. |
| MarketsProps.CreateThenGet | app/api/markets.py:56-93 | After a successful create, `GET /markets/{id}` returns the created view, and a new market has no outcomes. |
| MarketsProps.NoOutcomesForUnknownMarket | app/api/markets.py:151-153 | In a valid store a market id that is not stored owns no outcomes. The lookup-or-404 of `add_outcome` and the delete cascade keep it so. |
| MarketsProps.CreateFromTitleOnly | app/api/markets.py:64-93 | A body with only a non-blank title always succeeds. The status is "open", the title is stripped, every optional column is null, and `updated_at` equals `created_at`. |
| MarketsProps.UpdateMarketIdempotent | app/api/markets.py:96-133 | Repeating a successful update with the same body, at the same clock, gives the same reply and the same store. |
| MarketsProps.PatchedTwice | app/api/markets.py:102-128 | Applying the patch rules twice with one body and one clock changes nothing the second time. |
| MarketsProps.UpdateCategoryOnly | app/api/markets.py:114-115 | A body with only `category` changes that column and `updated_at`, and nothing else in the store. |
| MarketsProps.DeleteMarketThenNotFound | app/api/markets.py:136-214 | After a market is deleted, getting it and every outcome route under it answer 404. |
| MarketsProps.OutcomeUnderOtherMarket | app/api/markets.py:175-181 | An outcome cannot be updated or deleted through a market it does not belong to: 404, and the store is unchanged. |
| MarketsProps.AddOutcomeThenGet | app/api/markets.py:24-35 | A newly added outcome shows up in its market's view with its own columns. |
| Payloads.RequiredText | app/api/markets.py:70-72 | `(v or "").strip()` is rejected exactly when `v` is missing, null or white space only. Otherwise it is the stripped text, which is non-empty with no white space at either end. |
| Payloads.CreateStatus | app/api/markets.py:88 | "open" when the status is missing, null or empty. Otherwise the stripped value, which is empty exactly when the value is white space only. |
| Payloads.UpdateStatus | app/api/markets.py:127-128 | A missing, null or white-space-only status keeps the previous one. Anything else is stored stripped. |
| Models.FreshId | app/db/models.py:11-17 | The new primary key is not used by any existing row. |
| Models.OutcomeIdsOf | app/api/markets.py:24-34 | The outcome ids a market owns are stored ids, and there are none exactly when the market has no outcomes (`not m.outcomes`). |
| Seeds.SeedTitlesWellFormed | scripts/seed_markets.py:7-18 | The seed titles are pairwise different and none of them is blank. |
| Seeds.Missing | scripts/seed_markets.py:26 | A title is to be added exactly when it is a seed title and no market has it yet. |
| Seeds.SeedMarket | scripts/seed_markets.py:26 | A seeded market has the given title, null description, image_url, category and close_at, status "open", and both stamps set to the clock. |
| Seeds.MissingCount | scripts/seed_markets.py:26 | The titles to add have no repeats, and their number is the number of seed titles not already present. |
| Seeds.InsertSeeds | scripts/seed_markets.py:26-28 | Every existing row is kept. Each title gets a market of its own, under a fresh id that differs from every other title's, with the defaults and the clock. Those markets are the only new ones. |
| Seeds.SeedMarkets | scripts/seed_markets.py:21-34 | `added` is the number of seed titles missing from the table. Nothing is committed when it is 0. Afterwards every seed title is present, every existing row is unchanged, and each new market is a missing seed title with a null description, status "open" and the clock. |
| Seeds.SeedMarketsIdempotent | scripts/seed_markets.py:25-32 | A second run adds nothing and leaves the store as it was. |
| Seeds.SeedMarketsValid | scripts/seed_markets.py:21-34 | Seeding markets keeps the store's integrity rules. |
| Seeds.SeedOutcome | scripts/seed_outcomes.py:13-14 | A seeded outcome belongs to the given market, has the given label and price, status "open", and both stamps set to the clock. |
| Seeds.AddPair | scripts/seed_outcomes.py:11-16 | Exactly two outcomes are added, ("Yes", 6) and ("No", 94), both under fresh keys for that market; every existing row is kept. |
| Seeds.SeedOutcomesLoop | scripts/seed_outcomes.py:9-17 | Over the listed markets, each market without outcomes gains exactly the Yes/No pair and no other market gains anything. `added` is twice the number of such markets, and afterwards every listed market owns outcomes. |
| Seeds.SeedOutcomes | scripts/seed_outcomes.py:5-24 | `added` is twice the number of markets that had no outcomes. Nothing is committed when it is 0. Existing rows are kept, each such market gains exactly the ("Yes", 6) / ("No", 94) pair, no other market gains anything, and afterwards every market owns outcomes. |
| Seeds.SeedOutcomesIdempotent | scripts/seed_outcomes.py:9-22 | A second run adds nothing and leaves the store as it was. |
| Seeds.SeedOutcomesValid | scripts/seed_outcomes.py:5-24 | Seeding outcomes keeps the store's integrity rules. |
| Text.Strip | app/main.py:17 | `str.strip()`: the result has no white space at either end and is no longer than the input. |
| Text.StripComputes | app/main.py:17 | The stripped text is the input with a white-space-only prefix and suffix cut off, leaving a middle that is empty or has no white space at either end. |
| Text.StripsToUnique | app/main.py:17 | That description has only one solution, so it determines `strip` completely. |
| Text.StripEmptyIff | app/api/markets.py:71 | A string strips to "" exactly when it is white space only: the `if not title` test. |
| Text.StripIdempotent | app/api/markets.py:70 | Stripping twice is stripping once. |
| Text.Split | app/main.py:17 | `str.split(",")` gives at least one piece, and no piece holds the separator. |
| Text.JoinSplit | app/main.py:17 | Joining the pieces with the separator gives back the original string. |
| Text.SplitJoin | app/main.py:17 | Splitting a join of separator-free pieces gives back those pieces. |
| Text.SplitAppend | app/main.py:17 | Splitting `a + "," + b` is splitting `a`, then splitting `b`. |
| App.CleanPieces | app/main.py:17 | `[o.strip() for o in pieces if o.strip()]` keeps no more entries than there are pieces, and each kept entry is non-empty with no white space at either end. |
| App.CleanPiecesMember | app/main.py:17 | A string is kept exactly when it is non-empty and some piece strips to it. |
| App.ParseOrigins | app/main.py:17 | Every allowed origin is non-empty, has no white space at either end and holds no comma. There are no more origins than comma-separated pieces. An unset setting is read as "". |
| App.ParseOriginsMember | app/main.py:17 | An origin is allowed exactly when it is non-empty and some comma-separated piece of the setting strips to it. |
| App.ParseOriginsAppend | app/main.py:17 | Origins keep the order in which the setting lists them: a comma splits the list into the origins before it followed by those after it. |
| App.ParseOriginsEmpty | app/main.py:17-18 | The allow-list is empty exactly when every piece is white space only, in particular for an unset or empty setting. |
| App.CorsMiddleware | app/main.py:17-25 | The middleware is installed exactly when the allow-list is non-empty. It uses that list, credentials on, the six methods and every header. |
| App.AutoLinks | app/main.py:39-43 | Every automatic link is a "get" link to a path that is neither skipped nor parameterised, and there are no more links than routes. |
| App.AutoLinksMember | app/main.py:39-43 | A path is linked exactly when some GET `APIRoute` that is neither skipped nor parameterised has it. |
| App.AutoLinksAppend | app/main.py:39-43 | Links follow route registration order. |
| App.Root | app/main.py:28-50 | The body is ok and names the service. It opens with the docs, health and markets links, followed by exactly the automatic links of `AutoLinks`, in route order: one "get" link per GET `APIRoute` that is neither skipped nor parameterised (see `AutoLinksMember`, `AutoLinksAppend`). |
| App.RootLinksNoDuplicateFixed | app/main.py:30-43 | No automatic link repeats the target of one of the three fixed links. |

## Left out

- UpdateMarket: sets `updated_at` to the store clock on every successful update, including an empty body. `updated_at` is not declared in app/db/models.py. An ORM on-update stamp would not fire when no column changed, so the model differs here: it always stamps `updated_at`.
- UpdateOutcome: the same `updated_at` assumption as `UpdateMarket`.
- CreateMarket: sets both `created_at` and `updated_at` of the new market to the store clock. app/db/models.py declares `created_at` with `server_default=func.now()` but declares no `updated_at` column; the model assumes one stamped the same way.
- AddOutcome: sets both `created_at` and `updated_at` of the new outcome to the store clock. The outcome table is not declared in app/db/models.py; the model assumes it stamps like the market table.
- SeedOutcome: assumes the outcome `status` defaults to "open", like the market's. The outcome table is not declared in app/db/models.py.
- SeedMarket: assumes `image_url`, `category` and `close_at` are null for a seeded market and that `updated_at` starts equal to `created_at`. app/db/models.py declares none of these columns.
- Models.Valid: the clause that every outcome's market exists holds only under the `DeleteMarket` cascade assumption below. Nothing in app/db/models.py declares a foreign key; `add_outcome` only creates outcomes under a market it has found (app/api/markets.py:151-153).
- DeleteMarket: assumes the `outcomes` relationship cascades deletes, so a market's outcomes go with it. app/db/models.py does not declare the relationship or its cascade. Without a cascade the database would refuse the delete or leave orphans.
- MarketToDict: the `outcomes` list of a market's JSON form is modelled as a map keyed by outcome id. app/db/models.py does not declare the relationship, so no order can be relied on, and list order is not modelled.
- ListMarkets: the order of markets with equal `created_at` is left unspecified. The database's tie order is not modelled.
- Payloads.Payload: request values are limited to strings or null, plus an integer or null for `price_cents`, which is stored unchecked, as the handlers store it. Three paths that non-string JSON values take are not modelled:
  - a truthy non-string `title`, `label` or `status` raises in `.strip()`, and the request ends in a 500;
  - a truthy non-string `close_at` makes `fromisoformat` raise, and the broad `except` turns that into the 400 "close_at must be ISO8601";
  - a falsy non-string (`0`, `false`, `[]`, `{}`) reads like null in `(x or "")` and `(x or "open")`.
  Non-string values of `description`, `image_url` and `category` are stored as given, which the model covers for strings and null only.
- Database-side failures are not modelled: the `String(n)` length limits of app/db/models.py, constraint violations and commit errors.
- `datetime.fromisoformat` is the `parse` parameter, `uuid4()` is `Models.FreshId`, a fixed choice of unused key (contracts rely only on its freshness), and `func.now()` is the store's `clock`. Calendar values are plain integers.
- HTTP and FastAPI plumbing is not modelled: routing, status codes beyond the result kind, dependency injection, sessions and their closing, settings loading, the health router and the HTML response class.
- The seed scripts' `print` output is not modelled; only the count `added` is.
- `seed_outcomes.py` iterates `db.query(Market).all()`. That order is the `order` parameter of `Seeds.SeedOutcomes`, which must list every market once.
- The unreachable second `return None` at the end of `delete_outcome` and the unused `html` import in app/main.py have no behaviour to model.
- Markets.GetMarket: ids are compared by exact code points, both as store keys and in every handler's lookup. The source compares them in SQL (`filter(Market.id == market_id)`, and the outcome filters at app/api/markets.py:177 and 207), where the database's collation decides whether, say, upper and lower case match. app/core/config.py points at MySQL, whose default collation ignores case. Collations are not modelled. Seed titles are compared in Python (`t not in existing`, a set of strings), so exact comparison is what the source does there.
- Concurrency between requests is not modelled. Each request is one atomic transition.
- A white-space-only `status` on create or on add outcome is stored as "", because `(x or "open").strip()` strips after the `or` (app/api/markets.py:88 and 163). The model follows the code: `Payloads.CreateStatus` gives "" for white space only.

=== FILE: app.dfy ===
/**
 * The composition root: the allow-list parsed from the `CORS_ORIGINS`
 * setting, whether the CORS middleware is installed, and the link
 * directory the `/` route returns.
 */
module App {
  import opened Wrappers
  import opened Text

  /** `f` applied to every string of `xs`, in order. */
  function Each(f: string -> string, xs: seq<string>): (r: seq<string>)
    ensures |r| == |xs|
  {
    seq(|xs|, i requires 0 <= i < |xs| => f(xs[i]))
  }

  /** Mapping over a concatenation maps each part. */
  lemma EachAppend(f: string -> string, a: seq<string>, b: seq<string>)
    ensures Each(f, a + b) == Each(f, a) + Each(f, b)
  {
    var l := Each(f, a + b);
    var r := Each(f, a) + Each(f, b);
    forall i | 0 <= i < |l| ensures l[i] == r[i] {
      if i < |a| {
        assert (a + b)[i] == a[i];
      } else {
        assert (a + b)[i] == b[i - |a|];
      }
    }
  }

  /** `o.strip()` for every piece, in order. */
  function StripAll(pieces: seq<string>): (r: seq<string>)
    ensures |r| == |pieces|
  {
    Each(Strip, pieces)
  }

  /** The non-empty strings of `xs`, in order: the `if o.strip()` filter. */
  function NonEmpty(xs: seq<string>): (r: seq<string>)
    ensures |r| <= |xs|
    ensures forall i | 0 <= i < |r| :: r[i] != "" && r[i] in xs
  {
    if xs == [] then
      []
    else
      var rest := NonEmpty(xs[1..]);
      if xs[0] == "" then
        rest
      else
        var r := [xs[0]] + rest;
        assert r[0] == xs[0] && r[1..] == rest;
        r
  }

  /** A string survives the filter exactly when it is non-empty and present. */
  lemma {:induction false} NonEmptyMember(xs: seq<string>, o: string)
    ensures o in NonEmpty(xs) <==> o != "" && o in xs
  {
    if xs != [] {
      NonEmptyMember(xs[1..], o);
      assert xs == [xs[0]] + xs[1..];
    }
  }

  /** Filtering a concatenation filters each part, in order. */
  lemma {:induction false} NonEmptyAppend(a: seq<string>, b: seq<string>)
    ensures NonEmpty(a + b) == NonEmpty(a) + NonEmpty(b)
  {
    if a == [] {
      assert a + b == b;
    } else {
      assert (a + b)[0] == a[0] && (a + b)[1..] == a[1..] + b;
      NonEmptyAppend(a[1..], b);
    }
  }

  /** The filter drops everything exactly when every string is empty. */
  lemma {:induction false} NonEmptyNone(xs: seq<string>)
    ensures NonEmpty(xs) == [] <==> forall i | 0 <= i < |xs| :: xs[i] == ""
  {
    if xs != [] {
      NonEmptyNone(xs[1..]);
      if NonEmpty(xs) == [] {
        forall i | 0 <= i < |xs| ensures xs[i] == "" {
          if i > 0 { assert xs[i] == xs[1..][i - 1]; }
        }
      }
    }
  }

  /** `[o.strip() for o in pieces if o.strip()]`. */
  function CleanPieces(pieces: seq<string>): (r: seq<string>)
    ensures |r| <= |pieces|
    ensures forall i | 0 <= i < |r| :: r[i] != "" && Edgeless(r[i])
  {
    var stripped := StripAll(pieces);
    var r := NonEmpty(stripped);
    forall i | 0 <= i < |r| ensures Edgeless(r[i]) {
      var k :| 0 <= k < |stripped| && stripped[k] == r[i];
      assert stripped[k] == Strip(pieces[k]);
    }
    r
  }

  /** A cleaned entry is exactly a non-blank piece, stripped. */
  lemma CleanPiecesMember(pieces: seq<string>, o: string)
    ensures o in CleanPieces(pieces) <==> o != "" && exists k | 0 <= k < |pieces| :: Strip(pieces[k]) == o
  {
    var stripped := StripAll(pieces);
    NonEmptyMember(stripped, o);
    if o in stripped {
      var k :| 0 <= k < |stripped| && stripped[k] == o;
      assert Strip(pieces[k]) == o;
    }
    if exists k | 0 <= k < |pieces| :: Strip(pieces[k]) == o {
      var k :| 0 <= k < |pieces| && Strip(pieces[k]) == o;
      assert stripped[k] == o;
    }
  }

  /** Cleaning two lists of pieces one after the other is cleaning their concatenation. */
  lemma CleanPiecesAppend(a: seq<string>, b: seq<string>)
    ensures CleanPieces(a + b) == CleanPieces(a) + CleanPieces(b)
  {
    EachAppend(Strip, a, b);
    NonEmptyAppend(StripAll(a), StripAll(b));
  }

  /**
   * The CORS allow-list: the comma-separated pieces of `setting`, each
   * stripped, blank ones dropped, in their original order. An unset
   * setting reads as `""` (`settings.CORS_ORIGINS or ""`).
   */
  function ParseOrigins(setting: Option<string>): (origins: seq<string>)
    ensures forall i | 0 <= i < |origins| :: origins[i] != "" && Edgeless(origins[i]) && ',' !in origins[i]
    ensures |origins| <= |Split(setting.OrElse(""), ',')|
  {
    var pieces := Split(setting.OrElse(""), ',');
    var origins := CleanPieces(pieces);
    forall i | 0 <= i < |origins| ensures ',' !in origins[i] {
      var k :| 0 <= k < |pieces| && StripAll(pieces)[k] == origins[i];
      StripChars(pieces[k]);
    }
    origins
  }

  /** Origins listed after a comma come after those listed before it: order is preserved. */
  lemma ParseOriginsAppend(a: string, b: string)
    ensures ParseOrigins(Some(a + [','] + b)) == ParseOrigins(Some(a)) + ParseOrigins(Some(b))
  {
    SplitAppend(a, b, ',');
    CleanPiecesAppend(Split(a, ','), Split(b, ','));
  }

  /** An origin is allowed exactly when some comma-separated piece strips to it. */
  lemma ParseOriginsMember(setting: string, o: string)
    ensures o in ParseOrigins(Some(setting)) <==> o != "" && exists p | p in Split(setting, ',') :: Strip(p) == o
  {
    var pieces := Split(setting, ',');
    assert ParseOrigins(Some(setting)) == CleanPieces(pieces);
    CleanPiecesMember(pieces, o);
    SomeMapsTo(Strip, pieces, o);
  }

  /** Some string maps to `o` under `f`, stated over indices or over members alike. */
  lemma SomeMapsTo(f: string -> string, xs: seq<string>, o: string)
    ensures (exists k | 0 <= k < |xs| :: f(xs[k]) == o) <==> exists x | x in xs :: f(x) == o
  {
    if exists x | x in xs :: f(x) == o {
      var x :| x in xs && f(x) == o;
      var k :| 0 <= k < |xs| && xs[k] == x;
    }
  }

  /** Cleaning drops everything exactly when every piece is white space only. */
  lemma CleanPiecesEmpty(pieces: seq<string>)
    ensures CleanPieces(pieces) == [] <==> forall i | 0 <= i < |pieces| :: AllWs(pieces[i])
  {
    var stripped := StripAll(pieces);
    NonEmptyNone(stripped);
    forall i | 0 <= i < |pieces| ensures stripped[i] == "" <==> AllWs(pieces[i]) {
      StripEmptyIff(pieces[i]);
    }
  }

  /** A setting whose pieces are all blank (in particular an unset or empty one) allows nothing. */
  lemma ParseOriginsEmpty(setting: Option<string>)
    ensures ParseOrigins(setting) == [] <==> forall p | p in Split(setting.OrElse(""), ',') :: AllWs(p)
  {
    var pieces := Split(setting.OrElse(""), ',');
    CleanPiecesEmpty(pieces);
    EveryPieceBlank(pieces);
  }

  /** Every piece is blank, stated over indices or over members alike. */
  lemma EveryPieceBlank(pieces: seq<string>)
    ensures (forall p | p in pieces :: AllWs(p)) <==> forall i | 0 <= i < |pieces| :: AllWs(pieces[i])
  {
    if forall p | p in pieces :: AllWs(p) {
      forall i | 0 <= i < |pieces| ensures AllWs(pieces[i]) {
        assert pieces[i] in pieces;
      }
    }
  }

  /** The arguments `CORSMiddleware` is installed with. */
  datatype CorsConfig = CorsConfig(
    allowOrigins: seq<string>,
    allowCredentials: bool,
    allowMethods: seq<string>,
    allowHeaders: seq<string>)

  /** The CORS middleware, present only when the allow-list is non-empty. */
  function CorsMiddleware(setting: Option<string>): (c: Option<CorsConfig>)
    ensures c.Some? <==> ParseOrigins(setting) != []
    ensures c.Some? ==> && c.value.allowOrigins == ParseOrigins(setting)
                        && c.value.allowCredentials
                        && c.value.allowMethods == ["GET", "POST", "PUT", "PATCH", "DELETE", "OPTIONS"]
                        && c.value.allowHeaders == ["*"]
  {
    var origins := ParseOrigins(setting);
    if origins != [] then
      Some(CorsConfig(origins, true, ["GET", "POST", "PUT", "PATCH", "DELETE", "OPTIONS"], ["*"]))
    else
      None
  }

  /** A registered route: its path template, its methods, and whether it is an `APIRoute`. */
  datatype Route = Route(path: string, methods: set<string>, isApiRoute: bool)

  datatype Link = Link(rel: string, href: string)

  /** The JSON body of `GET /`. */
  datatype RootPayload = RootPayload(ok: bool, service: string, message: string, links: seq<Link>)

  /** The paths the directory never lists on its own. */
  const Skip: set<string> := {"/", "/docs", "/openapi.json", "/health", "/markets"}

  /** The three links the directory always opens with. */
  const FixedLinks: seq<Link> := [Link("docs", "/docs"), Link("health", "/health"), Link("markets", "/markets")]

  /** A route the directory lists: a GET `APIRoute` whose path is not skipped and has no parameter. */
  predicate Listed(r: Route) {
    r.isApiRoute && "GET" in r.methods && r.path !in Skip && '{' !in r.path
  }

  /** The links added for `routes`, in route order. */
  function AutoLinks(routes: seq<Route>): (links: seq<Link>)
    ensures |links| <= |routes|
    ensures forall i | 0 <= i < |links| :: links[i].rel == "get" && links[i].href !in Skip && '{' !in links[i].href
  {
    if routes == [] then
      []
    else if Listed(routes[0]) then
      [Link("get", routes[0].path)] + AutoLinks(routes[1..])
    else
      AutoLinks(routes[1..])
  }

  /** A path is linked exactly when some listed route has it. */
  lemma {:induction false} AutoLinksMember(routes: seq<Route>, path: string)
    ensures Link("get", path) in AutoLinks(routes) <==> exists i | 0 <= i < |routes| :: Listed(routes[i]) && routes[i].path == path
  {
    if routes != [] {
      AutoLinksMember(routes[1..], path);
      if Link("get", path) in AutoLinks(routes[1..]) {
        var i :| 0 <= i < |routes[1..]| && Listed(routes[1..][i]) && routes[1..][i].path == path;
        assert routes[i + 1] == routes[1..][i];
      }
      if exists i | 0 <= i < |routes| :: Listed(routes[i]) && routes[i].path == path {
        var i :| 0 <= i < |routes| && Listed(routes[i]) && routes[i].path == path;
        if i > 0 {
          assert routes[1..][i - 1] == routes[i];
        }
      }
    }
  }

  /** Routes registered later are linked after those registered earlier. */
  lemma {:induction false} AutoLinksAppend(a: seq<Route>, b: seq<Route>)
    ensures AutoLinks(a + b) == AutoLinks(a) + AutoLinks(b)
  {
    if a == [] {
      assert a + b == b;
    } else {
      assert (a + b)[1..] == a[1..] + b;
      AutoLinksAppend(a[1..], b);
    }
  }

  /** `root()` for the registered `routes`. */
  function Root(routes: seq<Route>): (body: RootPayload)
    ensures body.ok && body.service == "sokomjinga-api"
    ensures |body.links| >= 3 && body.links[..3] == FixedLinks
    ensures body.links[3..] == AutoLinks(routes)
    ensures forall i | 3 <= i < |body.links| :: body.links[i].rel == "get" && body.links[i].href !in Skip
  {
    RootPayload(true, "sokomjinga-api", "See /docs for full API documentation.", FixedLinks + AutoLinks(routes))
  }

  /** No automatic link repeats one of the fixed links. */
  lemma RootLinksNoDuplicateFixed(routes: seq<Route>)
    ensures forall i, j | 0 <= i < 3 <= j < |Root(routes).links| :: Root(routes).links[i].href != Root(routes).links[j].href
  {
  }
}

=== FILE: markets.dfy ===
/**
 * The request handlers of the markets router. Each handler is a transition
 * from a store to a reply: the result the client sees and the store after
 * the request. Every error is raised before the commit, so an error reply
 * always carries the store it was given.
 */
module Markets {
  import opened Wrappers
  import opened Text
  import opened Models
  import opened Payloads

  /** 200/201/204 with a body, 404 or 400 with a message. */
  datatype Result<+T> = Ok(value: T) | NotFound(detail: string) | BadRequest(detail: string)

  datatype Reply<+T> = Reply(result: Result<T>, store: Store)

  /** `datetime.fromisoformat`, as a partial function on strings: `None` where it raises. */
  type Parser = string -> Option<DateTime>

  /** One entry of the `outcomes` list of a market's JSON form. */
  datatype OutcomeSummary = OutcomeSummary(
    id: string,
    labelText: string,
    priceCents: Option<int>,
    status: string,
    createdAt: DateTime,
    updatedAt: DateTime)

  /** The JSON form of a market; its outcomes are keyed by id, as the relationship has no order. */
  datatype MarketView = MarketView(
    id: string,
    title: string,
    description: Option<string>,
    status: string,
    imageUrl: Option<string>,
    category: Option<string>,
    closeAt: Option<DateTime>,
    createdAt: DateTime,
    updatedAt: DateTime,
    outcomes: map<string, OutcomeSummary>)

  /** The JSON form of an outcome. */
  datatype OutcomeView = OutcomeView(
    id: string,
    marketId: string,
    labelText: string,
    priceCents: Option<int>,
    status: string,
    createdAt: DateTime,
    updatedAt: DateTime)

  /** The market columns a view carries. */
  function MarketOf(v: MarketView): Market {
    Market(v.id, v.title, v.description, v.imageUrl, v.category, v.closeAt, v.status, v.createdAt, v.updatedAt)
  }

  /** The outcome columns a view carries. */
  function OutcomeOf(v: OutcomeView): Outcome {
    Outcome(v.id, v.marketId, v.labelText, v.priceCents, v.status, v.createdAt, v.updatedAt)
  }

  function Summary(o: Outcome): OutcomeSummary {
    OutcomeSummary(o.id, o.labelText, o.priceCents, o.status, o.createdAt, o.updatedAt)
  }

  /**
   * `market_to_dict`: every column of the market, and a summary of each
   * outcome the market owns in `s`.
   */
  function MarketToDict(s: Store, m: Market): (v: MarketView)
    ensures MarketOf(v) == m
    ensures v.outcomes.Keys == OutcomeIdsOf(s, m.id)
    ensures forall oid | oid in v.outcomes :: v.outcomes[oid] == Summary(s.outcomes[oid])
  {
    MarketView(m.id, m.title, m.description, m.status, m.imageUrl, m.category, m.closeAt, m.createdAt, m.updatedAt,
      map oid | oid in OutcomeIdsOf(s, m.id) :: Summary(s.outcomes[oid]))
  }

  /** `outcome_to_dict`: every column of the outcome. */
  function OutcomeToDict(o: Outcome): (v: OutcomeView)
    ensures OutcomeOf(v) == o
  {
    OutcomeView(o.id, o.marketId, o.labelText, o.priceCents, o.status, o.createdAt, o.updatedAt)
  }

  /** A truthy `close_at` that `fromisoformat` rejects. */
  predicate CloseAtRejected(v: Option<string>, parse: Parser) {
    Truthy(v) && parse(v.value).None?
  }

  /**
   * The `close_at` value a request asks for: parsed when truthy, null when
   * null or empty, 400 when it does not parse.
   */
  function CloseAt(v: Option<string>, parse: Parser): (r: Result<Option<DateTime>>)
    ensures !r.NotFound?
    ensures r.BadRequest? <==> CloseAtRejected(v, parse)
    ensures r.BadRequest? ==> r.detail == "close_at must be ISO8601"
    ensures r.Ok? && Truthy(v) ==> r.value == parse(v.value) && r.value.Some?
    ensures r.Ok? && !Truthy(v) ==> r.value == None
  {
    if Truthy(v) then
      match parse(v.value)
      case Some(d) => Ok(Some(d))
      case None => BadRequest("close_at must be ISO8601")
    else
      Ok(None)
  }

  /** `GET /markets/{market_id}`. */
  function GetMarket(s: Store, id: string): (r: Result<MarketView>)
    ensures !r.BadRequest?
    ensures r.Ok? <==> id in s.markets
    ensures r.Ok? ==> MarketOf(r.value) == s.markets[id]
    ensures r.Ok? ==> r.value.outcomes.Keys == OutcomeIdsOf(s, s.markets[id].id)
    ensures r.Ok? ==> forall oid | oid in r.value.outcomes :: r.value.outcomes[oid] == Summary(s.outcomes[oid])
    ensures r.NotFound? ==> r.detail == "Market not found"
  {
    if id in s.markets then Ok(MarketToDict(s, s.markets[id])) else NotFound("Market not found")
  }

  /** The ids of `views`, in order. */
  function ViewIds(views: seq<MarketView>): (ids: seq<string>)
    ensures |ids| == |views|
    ensures forall i | 0 <= i < |views| :: ids[i] == views[i].id
  {
    seq(|views|, i requires 0 <= i < |views| => views[i].id)
  }

  /** `GET /markets`: every market, newest `created_at` first; ties in any order. */
  method ListMarkets(s: Store) returns (views: seq<MarketView>)
    requires MarketsKeyed(s)
    ensures |views| == |s.markets|
    ensures forall i | 0 <= i < |views| :: views[i].id in s.markets && views[i] == MarketToDict(s, s.markets[views[i].id])
    ensures Distinct(ViewIds(views))
    ensures forall i, j | 0 <= i < j < |views| :: views[i].createdAt >= views[j].createdAt
    ensures forall id | id in s.markets :: exists i | 0 <= i < |views| :: views[i].id == id
  {
    var ids := NewestFirst(s.markets);
    views := seq(|ids|, i requires 0 <= i < |ids| => MarketToDict(s, s.markets[ids[i]]));
    assert forall i | 0 <= i < |views| :: views[i].id == ids[i] && views[i].createdAt == s.markets[ids[i]].createdAt;
    assert ViewIds(views) == ids;
    forall id | id in s.markets ensures exists i | 0 <= i < |views| :: views[i].id == id {
      var i :| 0 <= i < |ids| && ids[i] == id;
      assert views[i].id == id;
    }
  }

  /** The keys of `markets`, each once, ordered by `created_at` descending (`ORDER BY created_at DESC`). */
  method NewestFirst(markets: map<string, Market>) returns (ids: seq<string>)
    ensures |ids| == |markets|
    ensures forall i | 0 <= i < |ids| :: ids[i] in markets
    ensures Distinct(ids)
    ensures forall i, j | 0 <= i < j < |ids| :: markets[ids[i]].createdAt >= markets[ids[j]].createdAt
    ensures forall k | k in markets :: k in ids
  {
    var rest := markets.Keys;
    ids := [];
    while rest != {}
      invariant rest <= markets.Keys
      invariant |ids| + |rest| == |markets|
      invariant forall i | 0 <= i < |ids| :: ids[i] in markets && ids[i] !in rest
      invariant Distinct(ids)
      invariant forall i, j | 0 <= i < j < |ids| :: markets[ids[i]].createdAt >= markets[ids[j]].createdAt
      invariant forall i, k | 0 <= i < |ids| && k in rest :: markets[ids[i]].createdAt >= markets[k].createdAt
      invariant forall k | k in markets :: k in rest || k in ids
      decreases rest
    {
      NewestExists(markets, rest);
      var newest :| newest in rest && forall k | k in rest :: markets[k].createdAt <= markets[newest].createdAt;
      ids := ids + [newest];
      rest := rest - {newest};
    }
  }

  /** A non-empty set of markets has a newest one. */
  lemma {:induction false} NewestExists(markets: map<string, Market>, ids: set<string>)
    requires ids != {} && ids <= markets.Keys
    ensures exists n | n in ids :: forall k | k in ids :: markets[k].createdAt <= markets[n].createdAt
  {
    var x :| x in ids;
    if ids != {x} {
      NewestExists(markets, ids - {x});
      var n :| n in ids - {x} && forall k | k in ids - {x} :: markets[k].createdAt <= markets[n].createdAt;
      if markets[x].createdAt <= markets[n].createdAt {
        assert forall k | k in ids :: markets[k].createdAt <= markets[n].createdAt;
      } else {
        assert forall k | k in ids :: markets[k].createdAt <= markets[x].createdAt;
      }
    } else {
      assert forall k | k in ids :: markets[k].createdAt <= markets[x].createdAt;
    }
  }

  /** `POST /markets`. */
  function CreateMarket(s: Store, p: Payload, parse: Parser): (r: Reply<MarketView>)
    ensures !r.result.NotFound?
    ensures r.result.BadRequest? <==> Blank(Get(p, "title")) || CloseAtRejected(Get(p, "close_at"), parse)
    ensures Blank(Get(p, "title")) ==> r.result == BadRequest("title is required")
    ensures !r.result.Ok? ==> r.store == s
    ensures r.result.Ok? ==>
      var m := MarketOf(r.result.value);
      && m.id !in s.markets
      && r.store == s.(markets := s.markets[m.id := m])
      && Get(p, "title").Some? && m.title == Strip(Get(p, "title").value) && Stripped(m.title)
      && m.description == Get(p, "description")
      && m.imageUrl == Get(p, "image_url")
      && m.category == Get(p, "category")
      && (Truthy(Get(p, "close_at")) ==> m.closeAt == parse(Get(p, "close_at").value))
      && (!Truthy(Get(p, "close_at")) ==> m.closeAt == None)
      && m.status == CreateStatus(Get(p, "status"))
      && m.createdAt == s.clock && m.updatedAt == s.clock
    ensures r.result.Ok? ==> GetMarket(r.store, r.result.value.id) == r.result
  {
    BlankIff(Get(p, "title"));
    var title := RequiredText(Get(p, "title"));
    if title.None? then
      Reply(BadRequest("title is required"), s)
    else
      var closeAt := CloseAt(Get(p, "close_at"), parse);
      if !closeAt.Ok? then
        Reply(BadRequest(closeAt.detail), s)
      else
        var id := FreshId(s.markets.Keys);
        var m := Market(id, title.value, Get(p, "description"), Get(p, "image_url"), Get(p, "category"),
                        closeAt.value, CreateStatus(Get(p, "status")), s.clock, s.clock);
        var s' := s.(markets := s.markets[id := m]);
        Reply(Ok(MarketToDict(s', m)), s')
  }

  /**
   * How an update changes market `m` into `m'` for payload `p`: each key
   * present in `p` sets its column by its rule, every other column keeps
   * its value, and `updated_at` takes the clock.
   */
  ghost predicate Patched(m: Market, m': Market, p: Payload, parse: Parser, now: DateTime) {
    && m'.id == m.id
    && m'.createdAt == m.createdAt
    && m'.updatedAt == now
    && ("title" !in p ==> m'.title == m.title)
    && ("title" in p ==> p["title"].Some? && m'.title == Strip(p["title"].value) && Stripped(m'.title))
    && m'.description == (if "description" in p then p["description"] else m.description)
    && m'.imageUrl == (if "image_url" in p then p["image_url"] else m.imageUrl)
    && m'.category == (if "category" in p then p["category"] else m.category)
    && ("close_at" !in p ==> m'.closeAt == m.closeAt)
    && ("close_at" in p && !Truthy(p["close_at"]) ==> m'.closeAt == None)
    && ("close_at" in p && Truthy(p["close_at"]) ==> m'.closeAt == parse(p["close_at"].value))
    && ("status" !in p ==> m'.status == m.status)
    && ("status" in p && Blank(p["status"]) ==> m'.status == m.status)
    && ("status" in p && !Blank(p["status"]) ==> m'.status == Strip(p["status"].value) && Stripped(m'.status))
  }

  /** The payload names a key whose value the update must reject with 400. */
  predicate MarketPatchRejected(p: Payload, parse: Parser) {
    || ("title" in p && Blank(p["title"]))
    || ("close_at" in p && CloseAtRejected(p["close_at"], parse))
  }

  /**
   * A required text column under a partial update: kept when `key` is
   * absent, `None` (a 400) when present but blank, stripped otherwise.
   */
  function PatchRequired(p: Payload, key: string, current: string): (t: Option<string>)
    ensures t.None? <==> key in p && Blank(p[key])
    ensures key !in p ==> t == Some(current)
    ensures key in p && t.Some? ==> p[key].Some? && t.value == Strip(p[key].value) && Stripped(t.value)
  {
    if key in p then
      BlankIff(p[key]);
      RequiredText(p[key])
    else
      Some(current)
  }

  /** `status` under a partial update: kept when absent or blank, stripped otherwise. */
  function PatchStatus(p: Payload, current: string): (st: string)
    ensures "status" !in p ==> st == current
    ensures "status" in p && Blank(p["status"]) ==> st == current
    ensures "status" in p && !Blank(p["status"]) ==> st == Strip(p["status"].value) && Stripped(st)
  {
    if "status" in p then
      BlankIff(p["status"]);
      UpdateStatus(p["status"], current)
    else
      current
  }

  /** A nullable text column under a partial update: copied verbatim when present, null included. */
  function PatchNullable(p: Payload, key: string, current: Option<string>): (v: Option<string>)
    ensures key in p ==> v == Get(p, key)
    ensures key !in p ==> v == current
  {
    if key in p then p[key] else current
  }

  /** The market `m` after payload `p`, or the 400 the payload draws. */
  function PatchMarket(m: Market, p: Payload, parse: Parser, now: DateTime): (r: Result<Market>)
    ensures !r.NotFound?
    ensures r.BadRequest? <==> MarketPatchRejected(p, parse)
    ensures r.Ok? ==> Patched(m, r.value, p, parse, now)
  {
    var title := PatchRequired(p, "title", m.title);
    if title.None? then
      BadRequest("title cannot be empty")
    else
      var closeAt := if "close_at" in p then CloseAt(p["close_at"], parse) else Ok(m.closeAt);
      if !closeAt.Ok? then
        BadRequest(closeAt.detail)
      else
        Ok(m.(
          title := title.value,
          description := PatchNullable(p, "description", m.description),
          imageUrl := PatchNullable(p, "image_url", m.imageUrl),
          category := PatchNullable(p, "category", m.category),
          closeAt := closeAt.value,
          status := PatchStatus(p, m.status),
          updatedAt := now))
  }

  /** `PUT /markets/{market_id}`: 404 first, then the payload's 400s, then the commit. */
  function UpdateMarket(s: Store, id: string, p: Payload, parse: Parser): (r: Reply<MarketView>)
    ensures r.result.NotFound? <==> id !in s.markets
    ensures r.result.BadRequest? <==> id in s.markets && MarketPatchRejected(p, parse)
    ensures !r.result.Ok? ==> r.store == s
    ensures r.result.Ok? ==>
      && r.store == s.(markets := s.markets[id := MarketOf(r.result.value)])
      && Patched(s.markets[id], MarketOf(r.result.value), p, parse, s.clock)
    ensures r.result.Ok? ==> GetMarket(r.store, id) == r.result
  {
    if id !in s.markets then
      Reply(NotFound("Market not found"), s)
    else
      var patched := PatchMarket(s.markets[id], p, parse, s.clock);
      if !patched.Ok? then
        Reply(BadRequest(patched.detail), s)
      else
        var s' := s.(markets := s.markets[id := patched.value]);
        Reply(Ok(MarketToDict(s', patched.value)), s')
  }

  /**
   * `DELETE /markets/{market_id}`. The market's outcomes go with it: this
   * assumes the `outcomes` relationship cascades deletes, which
   * app/db/models.py does not declare.
   */
  function DeleteMarket(s: Store, id: string): (r: Reply<()>)
    ensures !r.result.BadRequest?
    ensures r.result.NotFound? <==> id !in s.markets
    ensures !r.result.Ok? ==> r.store == s
    ensures r.result.Ok? ==>
      && r.store.markets == s.markets - {id}
      && r.store.clock == s.clock
      && !HasOutcomes(r.store, id)
      && (forall oid :: oid in r.store.outcomes <==> oid in s.outcomes && s.outcomes[oid].marketId != id)
      && (forall oid | oid in r.store.outcomes :: oid in s.outcomes && r.store.outcomes[oid] == s.outcomes[oid])
  {
    if id !in s.markets then
      Reply(NotFound("Market not found"), s)
    else
      var kept := map oid | oid in s.outcomes && s.outcomes[oid].marketId != id :: s.outcomes[oid];
      Reply(Ok(()), Store(s.markets - {id}, kept, s.clock))
  }

  /** The outcome `oid` exists and belongs to market `mid`: the joint filter of the outcome routes. */
  predicate Scoped(s: Store, mid: string, oid: string) {
    oid in s.outcomes && s.outcomes[oid].marketId == mid
  }

  /** `POST /markets/{market_id}/outcomes`. */
  function AddOutcome(s: Store, mid: string, p: OutcomePayload): (r: Reply<OutcomeView>)
    ensures r.result.NotFound? <==> mid !in s.markets
    ensures r.result.BadRequest? <==> mid in s.markets && Blank(Get(p.text, "label"))
    ensures r.result.BadRequest? ==> r.result.detail == "label is required"
    ensures !r.result.Ok? ==> r.store == s
    ensures r.result.Ok? ==>
      var o := OutcomeOf(r.result.value);
      && o.id !in s.outcomes
      && r.store == s.(outcomes := s.outcomes[o.id := o])
      && o.marketId == s.markets[mid].id
      && Get(p.text, "label").Some? && o.labelText == Strip(Get(p.text, "label").value) && Stripped(o.labelText)
      && (p.priceCents.None? ==> o.priceCents == None)
      && (p.priceCents.Some? ==> o.priceCents == p.priceCents.value)
      && o.status == CreateStatus(Get(p.text, "status"))
      && o.createdAt == s.clock && o.updatedAt == s.clock
  {
    if mid !in s.markets then
      Reply(NotFound("Market not found"), s)
    else
      BlankIff(Get(p.text, "label"));
      var newLabel := RequiredText(Get(p.text, "label"));
      if newLabel.None? then
        Reply(BadRequest("label is required"), s)
      else
        var o := Outcome(FreshId(s.outcomes.Keys), s.markets[mid].id, newLabel.value, p.priceCents.OrElse(None),
                         CreateStatus(Get(p.text, "status")), s.clock, s.clock);
        Reply(Ok(OutcomeToDict(o)), s.(outcomes := s.outcomes[o.id := o]))
  }

  /** How an update changes outcome `o` into `o'` for payload `p`, column by column. */
  ghost predicate OutcomePatched(o: Outcome, o': Outcome, p: OutcomePayload, now: DateTime) {
    && o'.id == o.id
    && o'.marketId == o.marketId
    && o'.createdAt == o.createdAt
    && o'.updatedAt == now
    && ("label" !in p.text ==> o'.labelText == o.labelText)
    && ("label" in p.text ==> p.text["label"].Some? && o'.labelText == Strip(p.text["label"].value) && Stripped(o'.labelText))
    && o'.priceCents == (if p.priceCents.Some? then p.priceCents.value else o.priceCents)
    && ("status" !in p.text ==> o'.status == o.status)
    && ("status" in p.text && Blank(p.text["status"]) ==> o'.status == o.status)
    && ("status" in p.text && !Blank(p.text["status"]) ==> o'.status == Strip(p.text["status"].value) && Stripped(o'.status))
  }

  /** The outcome `o` after payload `p`, or the 400 a blank `label` draws. */
  function PatchOutcome(o: Outcome, p: OutcomePayload, now: DateTime): (r: Result<Outcome>)
    ensures !r.NotFound?
    ensures r.BadRequest? <==> "label" in p.text && Blank(p.text["label"])
    ensures r.Ok? ==> OutcomePatched(o, r.value, p, now)
  {
    var newLabel := PatchRequired(p.text, "label", o.labelText);
    if newLabel.None? then
      BadRequest("label cannot be empty")
    else
      Ok(o.(
        labelText := newLabel.value,
        priceCents := if p.priceCents.Some? then p.priceCents.value else o.priceCents,
        status := PatchStatus(p.text, o.status),
        updatedAt := now))
  }

  /** `PUT /markets/{market_id}/outcomes/{outcome_id}`: 404 unless the outcome is under that market. */
  function UpdateOutcome(s: Store, mid: string, oid: string, p: OutcomePayload): (r: Reply<OutcomeView>)
    ensures r.result.NotFound? <==> !Scoped(s, mid, oid)
    ensures r.result.NotFound? ==> r.result.detail == "Outcome not found"
    ensures r.result.BadRequest? <==> Scoped(s, mid, oid) && "label" in p.text && Blank(p.text["label"])
    ensures !r.result.Ok? ==> r.store == s
    ensures r.result.Ok? ==>
      && r.store == s.(outcomes := s.outcomes[oid := OutcomeOf(r.result.value)])
      && OutcomePatched(s.outcomes[oid], OutcomeOf(r.result.value), p, s.clock)
  {
    if !Scoped(s, mid, oid) then
      Reply(NotFound("Outcome not found"), s)
    else
      var patched := PatchOutcome(s.outcomes[oid], p, s.clock);
      if !patched.Ok? then
        Reply(BadRequest(patched.detail), s)
      else
        Reply(Ok(OutcomeToDict(patched.value)), s.(outcomes := s.outcomes[oid := patched.value]))
  }

  /** `DELETE /markets/{market_id}/outcomes/{outcome_id}`. */
  function DeleteOutcome(s: Store, mid: string, oid: string): (r: Reply<()>)
    ensures !r.result.BadRequest?
    ensures r.result.NotFound? <==> !Scoped(s, mid, oid)
    ensures !r.result.Ok? ==> r.store == s
    ensures r.result.Ok? ==> r.store == s.(outcomes := s.outcomes - {oid})
  {
    if !Scoped(s, mid, oid) then
      Reply(NotFound("Outcome not found"), s)
    else
      Reply(Ok(()), s.(outcomes := s.outcomes - {oid}))
  }
}

=== FILE: markets_props.dfy ===
/**
 * Properties that relate several handler calls, or a handler to the store's
 * integrity rules.
 */
module MarketsProps {
  import opened Wrappers
  import opened Text
  import opened Models
  import opened Payloads
  import opened Markets

  /** Creating a market keeps the store valid. */
  lemma CreateMarketValid(s: Store, p: Payload, parse: Parser)
    requires Valid(s)
    ensures Valid(CreateMarket(s, p, parse).store)
  {
    var r := CreateMarket(s, p, parse);
    if r.result.Ok? {
      var m := MarketOf(r.result.value);
      assert r.store == s.(markets := s.markets[m.id := m]);
      StrippedNonBlank(m.title);
      InsertMarketValid(s, m);
    }
  }

  /** Inserting a market under its own id, with a non-blank title, keeps the store valid. */
  lemma InsertMarketValid(s: Store, m: Market)
    requires Valid(s) && NonBlank(m.title)
    ensures Valid(s.(markets := s.markets[m.id := m]))
  {
  }

  /** Writing an outcome under its own id, for an existing market, with a non-blank label, keeps the store valid. */
  lemma InsertOutcomeValid(s: Store, o: Outcome)
    requires Valid(s) && o.marketId in s.markets && NonBlank(o.labelText)
    ensures Valid(s.(outcomes := s.outcomes[o.id := o]))
  {
  }

  /** Updating a market keeps the store valid. */
  lemma UpdateMarketValid(s: Store, id: string, p: Payload, parse: Parser)
    requires Valid(s)
    ensures Valid(UpdateMarket(s, id, p, parse).store)
  {
    var r := UpdateMarket(s, id, p, parse);
    if r.result.Ok? {
      var m' := MarketOf(r.result.value);
      if "title" in p {
        StrippedNonBlank(m'.title);
      }
      InsertMarketValid(s, m');
    }
  }

  /** Deleting a market, with its outcomes, keeps the store valid: no outcome is orphaned. */
  lemma DeleteMarketValid(s: Store, id: string)
    requires Valid(s)
    ensures Valid(DeleteMarket(s, id).store)
  {
  }

  /** Adding an outcome keeps the store valid: the outcome's market exists. */
  lemma AddOutcomeValid(s: Store, mid: string, p: OutcomePayload)
    requires Valid(s)
    ensures Valid(AddOutcome(s, mid, p).store)
  {
    var r := AddOutcome(s, mid, p);
    if r.result.Ok? {
      var o := OutcomeOf(r.result.value);
      StrippedNonBlank(o.labelText);
      InsertOutcomeValid(s, o);
    }
  }

  /** Updating an outcome keeps the store valid. */
  lemma UpdateOutcomeValid(s: Store, mid: string, oid: string, p: OutcomePayload)
    requires Valid(s)
    ensures Valid(UpdateOutcome(s, mid, oid, p).store)
  {
    var r := UpdateOutcome(s, mid, oid, p);
    if r.result.Ok? {
      var o' := OutcomeOf(r.result.value);
      if "label" in p.text {
        StrippedNonBlank(o'.labelText);
      }
      InsertOutcomeValid(s, o');
    }
  }

  /** Deleting an outcome keeps the store valid. */
  lemma DeleteOutcomeValid(s: Store, mid: string, oid: string)
    requires Valid(s)
    ensures Valid(DeleteOutcome(s, mid, oid).store)
  {
  }

  /**
   * Reading a market back right after creating it returns exactly the
   * created market, with no outcomes yet.
   */
  lemma CreateThenGet(s: Store, p: Payload, parse: Parser)
    requires Valid(s)
    ensures var r := CreateMarket(s, p, parse);
      r.result.Ok? ==>
        && GetMarket(r.store, r.result.value.id) == r.result
        && r.result.value.outcomes == map[]
  {
    var r := CreateMarket(s, p, parse);
    if r.result.Ok? {
      NewMarketBare(s, r.store, r.result.value);
    }
  }

  /** A market stored under an id no market of a valid store had is read back with no outcomes. */
  lemma NewMarketBare(s: Store, s': Store, v: MarketView)
    requires Valid(s) && v.id !in s.markets && s'.outcomes == s.outcomes
    requires GetMarket(s', v.id) == Ok(v)
    ensures v.outcomes == map[]
  {
    NoOutcomesForUnknownMarket(s, v.id);
    assert s'.markets[v.id].id == v.id;
    assert v.outcomes.Keys == {};
  }

  /** In a valid store, an id that names no market owns no outcome. */
  lemma NoOutcomesForUnknownMarket(s: Store, id: string)
    requires Valid(s) && id !in s.markets
    ensures !HasOutcomes(s, id)
  {
  }

  /**
   * A market created from a non-blank title alone is open, has no optional
   * column set, and carries the stripped title.
   */
  lemma CreateFromTitleOnly(s: Store, title: string, parse: Parser)
    requires !AllWs(title)
    ensures var r := CreateMarket(s, map["title" := Some(title)], parse);
      && r.result.Ok?
      && r.result.value.status == "open"
      && r.result.value.title == Strip(title)
      && r.result.value.description == None
      && r.result.value.imageUrl == None
      && r.result.value.category == None
      && r.result.value.closeAt == None
      && r.result.value.createdAt == r.result.value.updatedAt
  {
    var p := map["title" := Some(title)];
    BlankIff(Get(p, "title"));
  }

  /** Applying the same update twice leaves the store as applying it once (the clock not having moved). */
  lemma UpdateMarketIdempotent(s: Store, id: string, p: Payload, parse: Parser)
    ensures var r := UpdateMarket(s, id, p, parse);
      r.result.Ok? ==> UpdateMarket(r.store, id, p, parse) == r
  {
    var r := UpdateMarket(s, id, p, parse);
    if r.result.Ok? {
      var r2 := UpdateMarket(r.store, id, p, parse);
      PatchedTwice(s.markets[id], MarketOf(r.result.value), MarketOf(r2.result.value), p, parse, s.clock);
    }
  }

  /** A patch applied to its own result changes nothing more. */
  lemma PatchedTwice(m: Market, m1: Market, m2: Market, p: Payload, parse: Parser, now: DateTime)
    requires Patched(m, m1, p, parse, now) && Patched(m1, m2, p, parse, now)
    ensures m1 == m2
  {
  }

  /** An update naming only `category` changes the category and `updated_at`, and nothing else anywhere. */
  lemma UpdateCategoryOnly(s: Store, id: string, category: Option<string>, parse: Parser)
    requires id in s.markets
    ensures var r := UpdateMarket(s, id, map["category" := category], parse);
      && r.result.Ok?
      && r.store.outcomes == s.outcomes
      && r.store.markets == s.markets[id := s.markets[id].(category := category, updatedAt := s.clock)]
  {
    var p := map["category" := category];
    var r := UpdateMarket(s, id, p, parse);
    assert !MarketPatchRejected(p, parse);
    var m := s.markets[id];
    var m' := MarketOf(r.result.value);
    assert m' == m.(category := category, updatedAt := s.clock);
  }

  /** After a market is deleted, it and every outcome route under it answer 404. */
  lemma DeleteMarketThenNotFound(s: Store, id: string, oid: string, p: OutcomePayload)
    ensures var r := DeleteMarket(s, id);
      r.result.Ok? ==>
        && GetMarket(r.store, id).NotFound?
        && UpdateOutcome(r.store, id, oid, p).result.NotFound?
        && DeleteOutcome(r.store, id, oid).result.NotFound?
        && AddOutcome(r.store, id, p).result.NotFound?
  {
  }

  /**
   * An outcome that belongs to one market is not found under any other:
   * updating or deleting it through the wrong market answers 404 and
   * changes nothing.
   */
  lemma OutcomeUnderOtherMarket(s: Store, mid: string, other: string, oid: string, p: OutcomePayload)
    requires Scoped(s, mid, oid) && other != mid
    ensures UpdateOutcome(s, other, oid, p) == Reply(NotFound("Outcome not found"), s)
    ensures DeleteOutcome(s, other, oid).result.NotFound?
    ensures DeleteOutcome(s, other, oid).store == s
  {
  }

  /** An added outcome shows up in its market's JSON form. */
  lemma AddOutcomeThenGet(s: Store, mid: string, p: OutcomePayload)
    ensures var r := AddOutcome(s, mid, p);
      r.result.Ok? && MarketsKeyed(s) ==>
        var g := GetMarket(r.store, mid);
        && g.Ok?
        && r.result.value.id in g.value.outcomes
        && g.value.outcomes[r.result.value.id] == Summary(OutcomeOf(r.result.value))
  {
    var r := AddOutcome(s, mid, p);
    if r.result.Ok? && MarketsKeyed(s) {
      var o := OutcomeOf(r.result.value);
      assert r.store == s.(outcomes := s.outcomes[o.id := o]);
      assert o.marketId == mid;
      assert r.store.outcomes[o.id].marketId == mid;
      assert o.id in OutcomeIdsOf(r.store, mid);
      var g := GetMarket(r.store, mid);
      assert g.value.outcomes[o.id] == Summary(r.store.outcomes[o.id]);
    }
  }
}

=== FILE: models.dfy ===
/**
 * The two tables of the service, `markets` and `outcomes`, as one immutable
 * store value, with the column rules the handlers rely on.
 */
module Models {
  import opened Wrappers
  import opened Text

  /** A `DateTime` column value; its calendar structure is not modelled. */
  type DateTime = int

  /** A row of `markets`. `id` is the primary key; `title` and `status` are NOT NULL. */
  datatype Market = Market(
    id: string,
    title: string,
    description: Option<string>,
    imageUrl: Option<string>,
    category: Option<string>,
    closeAt: Option<DateTime>,
    status: string,
    createdAt: DateTime,
    updatedAt: DateTime)

  /** A row of `outcomes`, owned by the market `marketId`. */
  datatype Outcome = Outcome(
    id: string,
    marketId: string,
    labelText: string,  // the `label` column (`label` is a Dafny keyword)
    priceCents: Option<int>,
    status: string,
    createdAt: DateTime,
    updatedAt: DateTime)

  /**
   * Both tables keyed by primary key, plus the database server's clock, the
   * value `func.now()` stamps on rows written in the current transaction.
   */
  datatype Store = Store(markets: map<string, Market>, outcomes: map<string, Outcome>, clock: DateTime)

  /** The `status` column default. */
  const DefaultStatus: string := "open"

  /**
   * The store's integrity rules: each row sits under its own primary key,
   * each outcome's market exists, and no required text column is blank.
   */
  ghost predicate Valid(s: Store) {
    && MarketsKeyed(s)
    && (forall id | id in s.markets :: NonBlank(s.markets[id].title))
    && (forall oid | oid in s.outcomes ::
          && s.outcomes[oid].id == oid
          && s.outcomes[oid].marketId in s.markets
          && NonBlank(s.outcomes[oid].labelText))
  }

  /** No element occurs twice. */
  predicate Distinct<T(==)>(xs: seq<T>) {
    forall i, j | 0 <= i < j < |xs| :: xs[i] != xs[j]
  }

  /** Every market sits under its own `id`, the primary key. */
  predicate MarketsKeyed(s: Store) {
    forall id | id in s.markets :: s.markets[id].id == id
  }

  /** Non-empty with no white space at either end, as a stripped required field always is. */
  predicate Stripped(t: string) {
    t != [] && Edgeless(t)
  }

  /** Holds some character that is not white space: what "title is required" demands. */
  predicate NonBlank(t: string) {
    !AllWs(t)
  }

  lemma StrippedNonBlank(t: string)
    requires Stripped(t)
    ensures NonBlank(t)
  {
    assert !IsWs(t[0]);
  }

  /** Whether market `mid` owns at least one outcome (`m.outcomes` is non-empty). */
  predicate HasOutcomes(s: Store, mid: string) {
    exists oid | oid in s.outcomes :: s.outcomes[oid].marketId == mid
  }

  /** The ids of the outcomes that market `mid` owns. */
  function OutcomeIdsOf(s: Store, mid: string): (ids: set<string>)
    ensures ids <= s.outcomes.Keys
    ensures ids == {} <==> !HasOutcomes(s, mid)
  {
    var ids := set oid | oid in s.outcomes && s.outcomes[oid].marketId == mid;
    assert HasOutcomes(s, mid) ==> ids != {} by {
      if HasOutcomes(s, mid) {
        var oid :| oid in s.outcomes && s.outcomes[oid].marketId == mid;
        assert oid in ids;
      }
    }
    ids
  }

  /** The `n`-th candidate identifier; candidates of different rank differ in length. */
  function Candidate(n: nat): (id: string)
    ensures |id| == n
  {
    seq(n, _ => 'x')
  }

  /**
   * A primary key that no row of `used` has: the role `uuid4()` plays for
   * the `id` column default. The first unused candidate is taken.
   */
  function FreshId(used: set<string>): (id: string)
    ensures id !in used
  {
    FreshFrom(used, 0)
  }

  function FreshFrom(used: set<string>, k: nat): (id: string)
    requires forall j | 0 <= j < k :: Candidate(j) in used
    ensures id !in used
    decreases |used| - k
  {
    if Candidate(k) !in used then
      Candidate(k)
    else
      CandidatesBounded(used, k + 1);
      FreshFrom(used, k + 1)
  }

  /** Pigeonhole: `n` distinct candidates all in `used` need `n` slots. */
  lemma CandidatesBounded(used: set<string>, n: nat)
    requires forall j | 0 <= j < n :: Candidate(j) in used
    ensures n <= |used|
  {
    var cs := set j | 0 <= j < n :: Candidate(j);
    CandidateSetSize(n);
    assert cs <= used;
    SubsetSize(cs, used);
  }

  lemma SubsetSize<T>(a: set<T>, b: set<T>)
    requires a <= b
    ensures |a| <= |b|
  {
    assert b == a + (b - a);
  }

  lemma {:induction false} CandidateSetSize(n: nat)
    ensures |set j | 0 <= j < n :: Candidate(j)| == n
  {
    if n > 0 {
      CandidateSetSize(n - 1);
      var prev := set j | 0 <= j < n - 1 :: Candidate(j);
      var all := set j | 0 <= j < n :: Candidate(j);
      assert Candidate(n - 1) !in prev;
      assert all == prev + {Candidate(n - 1)};
    }
  }
}

=== FILE: payloads.dfy ===
/**
 * Request bodies and the normalisation rules the handlers apply to them:
 * `dict.get`, Python truthiness of an optional string, and the
 * strip-and-default patterns for required text and `status`.
 */
module Payloads {
  import opened Wrappers
  import opened Text
  import opened Models

  /**
   * A JSON object whose values are strings or null. A key outside the map is
   * absent, null is `None`, and a string is `Some(text)`.
   */
  type Payload = map<string, Option<string>>

  /**
   * The body of an outcome request: its text fields, and `price_cents`,
   * which is `None` when the key is absent and `Some(None)` when it is null.
   */
  datatype OutcomePayload = OutcomePayload(text: Payload, priceCents: Option<Option<int>>)

  /** `payload.get(key)`: an absent key and an explicit null both read as `None`. */
  function Get(p: Payload, key: string): Option<string> {
    if key in p then p[key] else None
  }

  /** Python truthiness of an optional string: not None and not empty. */
  predicate Truthy(v: Option<string>) {
    v.Some? && v.value != ""
  }

  /** Python's `v or d` for an optional string. */
  function Or(v: Option<string>, d: string): string {
    if Truthy(v) then v.value else d
  }

  /** `not (v or "").strip()`: the test that rejects a required text field. */
  predicate Blank(v: Option<string>) {
    Strip(Or(v, "")) == ""
  }

  /** A required field is blank exactly when it is missing, null, or white space only. */
  lemma {:induction false} BlankIff(v: Option<string>)
    ensures Blank(v) <==> v.None? || AllWs(v.value)
  {
    StripEmptyIff(Or(v, ""));
  }

  /**
   * `(v or "").strip()` checked for emptiness, as `title` and `label` are
   * read: `None` when the handler answers 400, the stripped text otherwise.
   */
  function RequiredText(v: Option<string>): (t: Option<string>)
    ensures t.None? <==> v.None? || AllWs(v.value)
    ensures t.Some? ==> v.Some? && t.value == Strip(v.value) && Stripped(t.value)
  {
    var text := Strip(Or(v, ""));
    BlankIff(v);
    StripIdempotent(Or(v, ""));
    if text == "" then None else Some(text)
  }

  /**
   * `(v or "open").strip()`, the status of a new market or outcome: `"open"`
   * when the value is missing, null or empty, and the stripped value
   * otherwise, so white space alone becomes `""`.
   */
  function CreateStatus(v: Option<string>): (st: string)
    ensures !Truthy(v) ==> st == DefaultStatus
    ensures Truthy(v) ==> st == Strip(v.value)
    ensures Truthy(v) ==> (st == "" <==> AllWs(v.value))
  {
    StripEdgeless(DefaultStatus);
    StripEmptyIff(Or(v, DefaultStatus));
    Strip(Or(v, DefaultStatus))
  }

  /**
   * `(v or "").strip() or previous`, the status after an update that names the
   * key: a blank value keeps `previous`, anything else is stored stripped.
   */
  function UpdateStatus(v: Option<string>, previous: string): (st: string)
    ensures v.None? || AllWs(v.value) ==> st == previous
    ensures v.Some? && !AllWs(v.value) ==> st == Strip(v.value) && Stripped(st)
  {
    var t := RequiredText(v);
    if t.Some? then t.value else previous
  }
}

=== FILE: seeds.dfy ===
/**
 * The two seed scripts as transitions on the store: `seed_markets.py` adds
 * the fixed titles that are missing, `seed_outcomes.py` gives every market
 * without outcomes a Yes/No pair. Each commits only when it added something.
 */
module Seeds {
  import opened Wrappers
  import opened Text
  import opened Models

  /** The `SEEDS` list of `seed_markets.py`. */
  const SeedTitles: seq<string> := [
    "Will Ruto serve WANTAM?",
    "Will Kenya qualify for AFCON 2025?",
    "Will Manchester City win the Premier League this season?",
    "Will Bitcoin close above $100,000 by year-end?",
    "Will crude oil trade above $100 per barrel this quarter?",
    "Will the NSE 20 index finish the year higher than it started?",
    "Will Nairobi record a daily high above 35\U{00B0}C this month?",
    "Will a nationwide internet outage last more than 1 hour this quarter?",
    "Will a new international airline launch direct flights to Nairobi this year?",
    "Will the Safari Rally remain on the WRC calendar next season?"
  ]

  /** What a seed script reports (`added`) and the store it leaves. */
  datatype SeedRun = SeedRun(added: nat, store: Store)

  /** `set(db.execute(select(Market.title)).scalars())`. */
  function Titles(s: Store): set<string> {
    set id | id in s.markets :: s.markets[id].title
  }

  /** `Market(title=t, description=None)` once inserted: every other column takes its default. */
  function SeedMarket(id: string, title: string, now: DateTime): (m: Market)
    ensures m.id == id && m.title == title
    ensures m.description == None && m.imageUrl == None && m.category == None && m.closeAt == None
    ensures m.status == DefaultStatus
    ensures m.createdAt == now && m.updatedAt == m.createdAt
  {
    Market(id, title, None, None, None, None, DefaultStatus, now, now)
  }

  /** The seed titles are pairwise different, and none is blank: each ends in a question mark. */
  lemma SeedTitlesWellFormed()
    ensures Distinct(SeedTitles)
    ensures forall i | 0 <= i < |SeedTitles| :: NonBlank(SeedTitles[i])
  {
    assert !IsWs('?');
    forall i | 0 <= i < |SeedTitles|
      ensures |SeedTitles[i]| > 0 && SeedTitles[i][|SeedTitles[i]| - 1] == '?'
    {
      if i == 0 { assert SeedTitles[0][|SeedTitles[0]| - 1] == '?'; }
      else if i == 1 { assert SeedTitles[1][|SeedTitles[1]| - 1] == '?'; }
      else if i == 2 { assert SeedTitles[2][|SeedTitles[2]| - 1] == '?'; }
      else if i == 3 { assert SeedTitles[3][|SeedTitles[3]| - 1] == '?'; }
      else if i == 4 { assert SeedTitles[4][|SeedTitles[4]| - 1] == '?'; }
      else if i == 5 { assert SeedTitles[5][|SeedTitles[5]| - 1] == '?'; }
      else if i == 6 { assert SeedTitles[6][|SeedTitles[6]| - 1] == '?'; }
      else if i == 7 { assert SeedTitles[7][|SeedTitles[7]| - 1] == '?'; }
      else if i == 8 { assert SeedTitles[8][|SeedTitles[8]| - 1] == '?'; }
      else if i == 9 { assert SeedTitles[9][|SeedTitles[9]| - 1] == '?'; }
    }
  }

  /** `[t for t in seeds if t not in existing]`, in list order. */
  function Missing(seeds: seq<string>, existing: set<string>): (r: seq<string>)
    ensures forall t :: t in r <==> t in seeds && t !in existing
  {
    if seeds == [] then
      []
    else
      var rest := Missing(seeds[1..], existing);
      assert seeds == [seeds[0]] + seeds[1..];
      if seeds[0] in existing then rest else [seeds[0]] + rest
  }

  /** Without repeats among the seeds, the missing list has none either and counts the missing titles. */
  lemma {:induction false} MissingCount(seeds: seq<string>, existing: set<string>)
    requires Distinct(seeds)
    ensures Distinct(Missing(seeds, existing))
    ensures |Missing(seeds, existing)| == |set t | t in seeds && t !in existing|
  {
    if seeds != [] {
      var x := seeds[0];
      var tail := seeds[1..];
      DistinctTail(seeds);
      MissingCount(tail, existing);
      assert seeds == [x] + tail;
      MissingSetCons(x, tail, existing);
      if x !in existing {
        DistinctCons(x, Missing(tail, existing));
      }
    }
  }

  /** The missing titles of `[x] + tail` are those of `tail`, plus `x` when it is missing. */
  lemma MissingSetCons(x: string, tail: seq<string>, existing: set<string>)
    requires x !in tail
    ensures var rest := set t | t in tail && t !in existing;
      (set t | t in [x] + tail && t !in existing) == (if x in existing then rest else rest + {x})
      && (x !in existing ==> |rest + {x}| == |rest| + 1)
  {
  }

  /** The first element of a list free of repeats does not occur again. */
  lemma HeadNotInTail<T>(xs: seq<T>)
    requires Distinct(xs) && xs != []
    ensures xs[0] !in xs[1..]
  {
    forall j | 0 <= j < |xs[1..]| ensures xs[1..][j] != xs[0] {
      assert xs[1..][j] == xs[j + 1];
    }
  }

  /** Dropping the first element keeps a list free of repeats. */
  lemma DistinctTail<T>(xs: seq<T>)
    requires Distinct(xs) && xs != []
    ensures Distinct(xs[1..]) && xs[0] !in xs[1..]
  {
    HeadNotInTail(xs);
    forall i, j | 0 <= i < j < |xs[1..]| ensures xs[1..][i] != xs[1..][j] {
      assert xs[1..][i] == xs[i + 1] && xs[1..][j] == xs[j + 1];
    }
  }

  /** Prepending an element the list lacks keeps it free of repeats. */
  lemma DistinctCons<T>(x: T, xs: seq<T>)
    requires Distinct(xs) && x !in xs
    ensures Distinct([x] + xs)
  {
    var ys := [x] + xs;
    forall i, j | 0 <= i < j < |ys| ensures ys[i] != ys[j] {
      assert ys[j] == xs[j - 1];
      if i > 0 {
        assert ys[i] == xs[i - 1];
      }
    }
  }

  /** Adding one market under a fresh id adds its title to the set of titles. */
  lemma TitlesInsert(s: Store, m: Market)
    requires m.id !in s.markets
    ensures Titles(s.(markets := s.markets[m.id := m])) == Titles(s) + {m.title}
  {
    var s' := s.(markets := s.markets[m.id := m]);
    forall t | t in Titles(s) ensures t in Titles(s') {
      var id :| id in s.markets && s.markets[id].title == t;
      assert s'.markets[id].title == t;
    }
    assert s'.markets[m.id].title == m.title;
    forall t | t in Titles(s') ensures t in Titles(s) + {m.title} {
      var id :| id in s'.markets && s'.markets[id].title == t;
      if id != m.id {
        assert s.markets[id].title == t;
      }
    }
  }

  /** `r` keeps every market of `s` as it was, every outcome, and the clock. */
  ghost predicate Kept(s: Store, r: Store) {
    && r.outcomes == s.outcomes && r.clock == s.clock
    && s.markets.Keys <= r.markets.Keys
    && (forall id | id in s.markets :: r.markets[id] == s.markets[id])
  }

  /** `r` has one more market per title, and the titles of `titles` besides those of `s`. */
  ghost predicate GrewBy(s: Store, titles: seq<string>, r: Store) {
    && |r.markets| == |s.markets| + |titles|
    && Titles(r) == Titles(s) + (set t | t in titles)
  }

  /** Every market of `r` that `s` lacks is a seed market for one of `titles`, stamped with the clock. */
  ghost predicate NewAreSeeds(s: Store, titles: seq<string>, r: Store) {
    forall id | id in r.markets && id !in s.markets ::
      r.markets[id] == SeedMarket(id, r.markets[id].title, s.clock) && r.markets[id].title in titles
  }

  /** What inserting one seed market per title does to `s`. */
  ghost predicate Inserted(s: Store, titles: seq<string>, r: Store) {
    Kept(s, r) && GrewBy(s, titles, r) && NewAreSeeds(s, titles, r)
  }

  /**
   * `ids[i]` is the new market built for `titles[i]`: the ids are fresh and
   * pairwise different, and they are all the markets `r` adds to `s`.
   */
  ghost predicate OnePerTitle(s: Store, titles: seq<string>, ids: seq<string>, r: Store) {
    && |ids| == |titles|
    && Distinct(ids)
    && (forall i | 0 <= i < |ids| ::
          ids[i] !in s.markets && ids[i] in r.markets && r.markets[ids[i]] == SeedMarket(ids[i], titles[i], s.clock))
    && (forall id | id in r.markets && id !in s.markets :: id in ids)
  }

  /** `db.add_all` of one seed market per title, each under a fresh id, stamped with the clock. */
  function InsertSeeds(s: Store, titles: seq<string>): (r: Store)
    ensures Inserted(s, titles, r)
    ensures exists ids :: OnePerTitle(s, titles, ids, r)
    decreases |titles|
  {
    if titles == [] then
      assert (set t | t in titles) == {};
      assert OnePerTitle(s, titles, [], s);
      s
    else
      var id := FreshId(s.markets.Keys);
      var m := SeedMarket(id, titles[0], s.clock);
      var s1 := s.(markets := s.markets[id := m]);
      var r := InsertSeeds(s1, titles[1..]);
      KeptStep(s, m, r);
      GrewStep(s, m, titles, r);
      NewStep(s, m, titles, r);
      OneStep(s, s1, m, titles, r);
      r
  }

  /** The market for the first title, followed by the markets for the rest, is one market per title. */
  lemma OneStep(s: Store, s1: Store, m: Market, titles: seq<string>, r: Store)
    requires m.id !in s.markets && titles != [] && m == SeedMarket(m.id, titles[0], s.clock)
    requires s1 == s.(markets := s.markets[m.id := m]) && Kept(s1, r)
    requires exists ids :: OnePerTitle(s1, titles[1..], ids, r)
    ensures exists ids :: OnePerTitle(s, titles, ids, r)
  {
    var rest :| OnePerTitle(s1, titles[1..], rest, r);
    OneStepWith(s, s1.markets.Keys, m, titles, rest, r);
  }

  /** `rest` served the titles after the first on a store that already held `m`; `m` serves the first. */
  lemma OneStepWith(s: Store, keys1: set<string>, m: Market, titles: seq<string>, rest: seq<string>, r: Store)
    requires m.id !in s.markets && titles != [] && m == SeedMarket(m.id, titles[0], s.clock)
    requires keys1 == s.markets.Keys + {m.id}
    requires m.id in r.markets && r.markets[m.id] == m
    requires |rest| == |titles| - 1 && Distinct(rest)
    requires forall i | 0 <= i < |rest| ::
               rest[i] !in keys1 && rest[i] in r.markets && r.markets[rest[i]] == SeedMarket(rest[i], titles[i + 1], s.clock)
    requires forall id | id in r.markets && id !in keys1 :: id in rest
    ensures OnePerTitle(s, titles, [m.id] + rest, r)
  {
    var ids := [m.id] + rest;
    DistinctCons(m.id, rest);
    forall i | 0 <= i < |ids|
      ensures ids[i] !in s.markets && ids[i] in r.markets && r.markets[ids[i]] == SeedMarket(ids[i], titles[i], s.clock)
    {
      if i > 0 {
        assert ids[i] == rest[i - 1];
      }
    }
  }

  /** Markets kept across an insert of a fresh id and then across the rest are kept overall. */
  lemma KeptStep(s: Store, m: Market, r: Store)
    requires m.id !in s.markets
    requires Kept(s.(markets := s.markets[m.id := m]), r)
    ensures Kept(s, r)
  {
  }

  /** One market for the first title, then one per remaining title. */
  lemma GrewStep(s: Store, m: Market, titles: seq<string>, r: Store)
    requires m.id !in s.markets && titles != [] && m.title == titles[0]
    requires GrewBy(s.(markets := s.markets[m.id := m]), titles[1..], r)
    ensures GrewBy(s, titles, r)
  {
    TitlesInsert(s, m);
    assert (set t | t in titles) == {titles[0]} + (set t | t in titles[1..]) by {
      assert titles == [titles[0]] + titles[1..];
    }
  }

  /** The market inserted first and those inserted after it are all seed markets for `titles`. */
  lemma NewStep(s: Store, m: Market, titles: seq<string>, r: Store)
    requires m.id !in s.markets && titles != [] && m == SeedMarket(m.id, titles[0], s.clock)
    requires Kept(s.(markets := s.markets[m.id := m]), r)
    requires NewAreSeeds(s.(markets := s.markets[m.id := m]), titles[1..], r)
    ensures NewAreSeeds(s, titles, r)
  {
    var s1 := s.(markets := s.markets[m.id := m]);
    forall id | id in r.markets && id !in s.markets
      ensures r.markets[id] == SeedMarket(id, r.markets[id].title, s.clock) && r.markets[id].title in titles
    {
      if id == m.id {
        assert r.markets[id] == m;
      } else {
        assert id !in s1.markets;
        assert r.markets[id].title in titles[1..];
      }
    }
  }

  /** `seed_markets.main`: insert the seed titles no market has yet, committing only if there are any. */
  function SeedMarkets(s: Store): (r: SeedRun)
    ensures r.added == |set t | t in SeedTitles && t !in Titles(s)|
    ensures r.added == |r.store.markets| - |s.markets|
    ensures r.added == 0 ==> r.store == s
    ensures r.store.outcomes == s.outcomes && r.store.clock == s.clock
    ensures forall id | id in s.markets :: id in r.store.markets && r.store.markets[id] == s.markets[id]
    ensures forall t | t in SeedTitles :: t in Titles(r.store)
    ensures forall id | id in r.store.markets && id !in s.markets ::
              var m := r.store.markets[id];
              m.title in SeedTitles && m.title !in Titles(s)
              && m.description == None && m.status == DefaultStatus && m.createdAt == s.clock
  {
    SeedTitlesWellFormed();
    var toAdd := Missing(SeedTitles, Titles(s));
    MissingCount(SeedTitles, Titles(s));
    assert Inserted(s, toAdd, InsertSeeds(s, toAdd));
    if |toAdd| > 0 then SeedRun(|toAdd|, InsertSeeds(s, toAdd)) else SeedRun(0, s)
  }

  /** Running `seed_markets` a second time adds nothing and commits nothing. */
  lemma {:induction false} SeedMarketsIdempotent(s: Store)
    ensures var first := SeedMarkets(s);
      SeedMarkets(first.store) == SeedRun(0, first.store)
  {
    var first := SeedMarkets(s);
    assert (set t | t in SeedTitles && t !in Titles(first.store)) == {};
  }

  /** Seeding markets keeps the store valid. */
  lemma SeedMarketsValid(s: Store)
    requires Valid(s)
    ensures Valid(SeedMarkets(s).store)
  {
    SeedTitlesWellFormed();
    var r := SeedMarkets(s);
    forall id | id in r.store.markets && id !in s.markets
      ensures r.store.markets[id].id == id && NonBlank(r.store.markets[id].title)
    {
      var m := r.store.markets[id];
      var i :| 0 <= i < |SeedTitles| && SeedTitles[i] == m.title;
    }
  }

  /** `Outcome(market_id=mid, label=text, price_cents=price)` once inserted. */
  function SeedOutcome(id: string, mid: string, text: string, price: int, now: DateTime): (o: Outcome)
    ensures o.id == id && o.marketId == mid && o.labelText == text
    ensures o.priceCents == Some(price)
    ensures o.status == DefaultStatus
    ensures o.createdAt == now && o.updatedAt == o.createdAt
  {
    Outcome(id, mid, text, Some(price), DefaultStatus, now, now)
  }

  /** One of the two rows `seed_outcomes.py` writes: ("Yes", 6) or ("No", 94). */
  predicate SeedRow(o: Outcome, id: string, now: DateTime) {
    || o == SeedOutcome(id, o.marketId, "Yes", 6, now)
    || o == SeedOutcome(id, o.marketId, "No", 94, now)
  }

  /** The outcomes of market `mid` that `s'` has and `s` had not. */
  function Added(s: Store, s': Store, mid: string): set<string> {
    set oid | oid in s'.outcomes && oid !in s.outcomes && s'.outcomes[oid].marketId == mid
  }

  /** Market `mid` gained exactly two outcomes: ("Yes", 6) and ("No", 94). */
  ghost predicate GainedPair(s: Store, s': Store, mid: string) {
    && |Added(s, s', mid)| == 2
    && (exists oid | oid in Added(s, s', mid) :: s'.outcomes[oid] == SeedOutcome(oid, mid, "Yes", 6, s.clock))
    && (exists oid | oid in Added(s, s', mid) :: s'.outcomes[oid] == SeedOutcome(oid, mid, "No", 94, s.clock))
  }

  /** `s'` keeps every outcome of `s` as it was, and every market and the clock. */
  ghost predicate Extends(s: Store, s': Store) {
    && s'.markets == s.markets
    && s'.clock == s.clock
    && s.outcomes.Keys <= s'.outcomes.Keys
    && (forall oid | oid in s.outcomes :: s'.outcomes[oid] == s.outcomes[oid])
  }

  /** `db.add_all` of the Yes/No pair for market `mid`, each under a fresh id. */
  function AddPair(s: Store, mid: string): (r: Store)
    ensures Extends(s, r)
    ensures |r.outcomes| == |s.outcomes| + 2
    ensures GainedPair(s, r, mid)
    ensures forall oid | oid in r.outcomes && oid !in s.outcomes ::
              r.outcomes[oid].marketId == mid && SeedRow(r.outcomes[oid], oid, s.clock)
  {
    var yes := FreshId(s.outcomes.Keys);
    var s1 := s.(outcomes := s.outcomes[yes := SeedOutcome(yes, mid, "Yes", 6, s.clock)]);
    var no := FreshId(s1.outcomes.Keys);
    var r := s1.(outcomes := s1.outcomes[no := SeedOutcome(no, mid, "No", 94, s.clock)]);
    assert Added(s, r, mid) == {yes, no};
    assert r.outcomes[yes] == SeedOutcome(yes, mid, "Yes", 6, s.clock);
    r
  }

  /** The markets of `order` that own no outcome in `s`: `not m.outcomes`. */
  function Bare(s: Store, order: seq<string>): set<string> {
    set mid | mid in order && !HasOutcomes(s, mid)
  }

  /** New outcomes of a two-step extension split between the steps. */
  lemma AddedSplit(s: Store, s1: Store, s2: Store, mid: string)
    requires Extends(s, s1) && Extends(s1, s2)
    ensures Added(s, s2, mid) == Added(s, s1, mid) + Added(s1, s2, mid)
  {
  }

  /** A market that gained nothing owns outcomes exactly when it did before. */
  lemma HasOutcomesKept(s: Store, s1: Store, mid: string)
    requires Extends(s, s1) && Added(s, s1, mid) == {}
    ensures HasOutcomes(s1, mid) == HasOutcomes(s, mid)
  {
    if HasOutcomes(s1, mid) {
      var oid :| oid in s1.outcomes && s1.outcomes[oid].marketId == mid;
      assert oid !in Added(s, s1, mid);
    }
  }

  /** A pair gained in a first step is still the market's whole gain after a step that adds it nothing. */
  lemma GainedPairKept(s: Store, s1: Store, s2: Store, mid: string)
    requires Extends(s, s1) && Extends(s1, s2)
    requires GainedPair(s, s1, mid) && Added(s1, s2, mid) == {}
    ensures GainedPair(s, s2, mid)
  {
    AddedSplit(s, s1, s2, mid);
    var y :| y in Added(s, s1, mid) && s1.outcomes[y] == SeedOutcome(y, mid, "Yes", 6, s.clock);
    var n :| n in Added(s, s1, mid) && s1.outcomes[n] == SeedOutcome(n, mid, "No", 94, s.clock);
    assert s2.outcomes[y] == s1.outcomes[y] && s2.outcomes[n] == s1.outcomes[n];
  }

  /** A pair gained in a second step, after a first step that added the market nothing, is its whole gain. */
  lemma GainedPairLate(s: Store, s1: Store, s2: Store, mid: string)
    requires Extends(s, s1) && Extends(s1, s2)
    requires Added(s, s1, mid) == {} && GainedPair(s1, s2, mid)
    ensures GainedPair(s, s2, mid)
  {
    AddedSplit(s, s1, s2, mid);
    assert Added(s, s2, mid) == Added(s1, s2, mid);
  }

  /** Nothing is lost, and exactly two rows per bare market of `order` are added. */
  ghost predicate Counted(s: Store, order: seq<string>, r: SeedRun) {
    && Extends(s, r.store)
    && r.added == 2 * |Bare(s, order)|
    && |r.store.outcomes| == |s.outcomes| + r.added
  }

  /** Every bare market of `order` gains exactly the Yes/No pair; no other market gains anything. */
  ghost predicate Gains(s: Store, order: seq<string>, r: SeedRun) {
    && (forall mid | mid in Bare(s, order) :: GainedPair(s, r.store, mid))
    && (forall mid | mid !in Bare(s, order) :: Added(s, r.store, mid) == {})
  }

  /** Every added row is a seed row of a bare market of `order`. */
  ghost predicate Rows(s: Store, order: seq<string>, r: SeedRun) {
    forall oid | oid in r.store.outcomes && oid !in s.outcomes ::
      r.store.outcomes[oid].marketId in Bare(s, order) && SeedRow(r.store.outcomes[oid], oid, s.clock)
  }

  /** Afterwards every market of `order` owns outcomes. */
  ghost predicate Covered(order: seq<string>, r: SeedRun) {
    forall mid | mid in order :: HasOutcomes(r.store, mid)
  }

  /** What the loop of `seed_outcomes.py` over `order` achieves from `s`. */
  ghost predicate LoopDone(s: Store, order: seq<string>, r: SeedRun) {
    Counted(s, order, r) && Gains(s, order, r) && Rows(s, order, r) && Covered(order, r)
  }

  /** The loop of `seed_outcomes.py` over the markets listed in `order`. */
  function SeedOutcomesLoop(s: Store, order: seq<string>): (r: SeedRun)
    requires Distinct(order)
    ensures LoopDone(s, order, r)
    decreases |order|
  {
    if order == [] then
      assert Bare(s, order) == {};
      SeedRun(0, s)
    else
      var mid := order[0];
      var tail := order[1..];
      assert order == [mid] + tail;
      assert mid !in tail;
      if HasOutcomes(s, mid) then
        var rest := SeedOutcomesLoop(s, tail);
        LoopSkip(s, mid, tail, rest);
        rest
      else
        var s1 := AddPair(s, mid);
        var rest := SeedOutcomesLoop(s1, tail);
        LoopStep(s, s1, mid, tail, rest);
        SeedRun(rest.added + 2, rest.store)
  }

  /** A market that already owns outcomes is passed over. */
  lemma LoopSkip(s: Store, mid: string, tail: seq<string>, rest: SeedRun)
    requires HasOutcomes(s, mid)
    requires LoopDone(s, tail, rest)
    ensures LoopDone(s, [mid] + tail, rest)
  {
    BareSkip(s, mid, tail);
    SkipCover(s, mid, tail, rest);
  }

  /** A market that owns outcomes is not bare. */
  lemma BareSkip(s: Store, mid: string, tail: seq<string>)
    requires HasOutcomes(s, mid)
    ensures Bare(s, [mid] + tail) == Bare(s, tail)
  {
  }

  /** A market keeps the outcomes it owned, so the rest of the loop covers it too. */
  lemma SkipCover(s: Store, mid: string, tail: seq<string>, rest: SeedRun)
    requires HasOutcomes(s, mid) && Extends(s, rest.store) && Covered(tail, rest)
    ensures Covered([mid] + tail, rest)
  {
    var oid :| oid in s.outcomes && s.outcomes[oid].marketId == mid;
    assert rest.store.outcomes[oid].marketId == mid;
  }

  /** A bare market gains its pair, and the rest of the loop runs on the extended store `s1`. */
  lemma LoopStep(s: Store, s1: Store, mid: string, tail: seq<string>, rest: SeedRun)
    requires !HasOutcomes(s, mid) && mid !in tail
    requires Extends(s, s1) && |s1.outcomes| == |s.outcomes| + 2 && GainedPair(s, s1, mid)
    requires forall oid | oid in s1.outcomes && oid !in s.outcomes ::
               s1.outcomes[oid].marketId == mid && SeedRow(s1.outcomes[oid], oid, s.clock)
    requires LoopDone(s1, tail, rest)
    ensures LoopDone(s, [mid] + tail, SeedRun(rest.added + 2, rest.store))
  {
    var r := SeedRun(rest.added + 2, rest.store);
    BareAfterPair(s, s1, mid, tail);
    CountStep(s, s1, mid, tail, rest);
    GainsStep(s, s1, mid, tail, rest);
    RowsStep(s, s1, mid, tail, rest);
    CoverStep(s, s1, mid, tail, rest);
  }

  /** Adding outcomes to `mid` alone, which `tail` does not list, changes only `mid` among the bare markets. */
  lemma BareAfterPair(s: Store, s1: Store, mid: string, tail: seq<string>)
    requires Extends(s, s1) && mid !in tail && !HasOutcomes(s, mid)
    requires forall oid | oid in s1.outcomes && oid !in s.outcomes :: s1.outcomes[oid].marketId == mid
    ensures Bare(s1, tail) == Bare(s, tail)
    ensures Bare(s, [mid] + tail) == {mid} + Bare(s, tail)
    ensures mid !in Bare(s, tail)
  {
    forall m | m in tail ensures HasOutcomes(s1, m) == HasOutcomes(s, m) {
      assert Added(s, s1, m) == {};
      HasOutcomesKept(s, s1, m);
    }
  }

  /** The counts of the pair step and of the rest of the loop add up. */
  lemma CountStep(s: Store, s1: Store, mid: string, tail: seq<string>, rest: SeedRun)
    requires Extends(s, s1) && |s1.outcomes| == |s.outcomes| + 2
    requires Bare(s1, tail) == Bare(s, tail) && Bare(s, [mid] + tail) == {mid} + Bare(s, tail)
    requires mid !in Bare(s, tail)
    requires Counted(s1, tail, rest)
    ensures Counted(s, [mid] + tail, SeedRun(rest.added + 2, rest.store))
  {
    assert |{mid} + Bare(s, tail)| == |Bare(s, tail)| + 1;
  }

  /** The gains of the pair step, for `mid` alone, and of the rest of the loop combine. */
  lemma GainsStep(s: Store, s1: Store, mid: string, tail: seq<string>, rest: SeedRun)
    requires Extends(s, s1) && Extends(s1, rest.store) && GainedPair(s, s1, mid)
    requires forall oid | oid in s1.outcomes && oid !in s.outcomes :: s1.outcomes[oid].marketId == mid
    requires Bare(s1, tail) == Bare(s, tail) && Bare(s, [mid] + tail) == {mid} + Bare(s, tail)
    requires mid !in Bare(s, tail)
    requires Gains(s1, tail, rest)
    ensures Gains(s, [mid] + tail, SeedRun(rest.added + 2, rest.store))
  {
    var s2 := rest.store;
    forall m | m in {mid} + Bare(s, tail) ensures GainedPair(s, s2, m) {
      if m == mid {
        GainedPairKept(s, s1, s2, mid);
      } else {
        assert Added(s, s1, m) == {};
        GainedPairLate(s, s1, s2, m);
      }
    }
    forall m | m !in {mid} + Bare(s, tail) ensures Added(s, s2, m) == {} {
      assert Added(s, s1, m) == {};
      AddedSplit(s, s1, s2, m);
    }
  }

  /** Every row new after the pair step and the rest of the loop is a seed row of a market one of them served. */
  lemma RowsStep(s: Store, s1: Store, mid: string, tail: seq<string>, rest: SeedRun)
    requires Extends(s, s1) && Extends(s1, rest.store)
    requires forall oid | oid in s1.outcomes && oid !in s.outcomes ::
               s1.outcomes[oid].marketId == mid && SeedRow(s1.outcomes[oid], oid, s.clock)
    requires Bare(s1, tail) == Bare(s, tail) && Bare(s, [mid] + tail) == {mid} + Bare(s, tail)
    requires Rows(s1, tail, rest)
    ensures Rows(s, [mid] + tail, SeedRun(rest.added + 2, rest.store))
  {
  }

  /** `mid` owns its new pair, and the rest of the loop covers `tail`. */
  lemma CoverStep(s: Store, s1: Store, mid: string, tail: seq<string>, rest: SeedRun)
    requires Extends(s1, rest.store) && GainedPair(s, s1, mid)
    requires Covered(tail, rest)
    ensures Covered([mid] + tail, SeedRun(rest.added + 2, rest.store))
  {
    var oid :| oid in Added(s, s1, mid);
    assert rest.store.outcomes[oid].marketId == mid;
  }

  /**
   * `seed_outcomes.py`: give each market that owns no outcome a ("Yes", 6)
   * and a ("No", 94) outcome, committing only if any were added. `order`
   * lists the ids of the rows `db.query(Market).all()` returns, each once.
   */
  function SeedOutcomes(s: Store, order: seq<string>): (r: SeedRun)
    requires Distinct(order)
    requires forall i | 0 <= i < |order| :: order[i] in s.markets
    requires forall id | id in s.markets :: id in order
    ensures r.added == 2 * |set mid | mid in s.markets && !HasOutcomes(s, mid)|
    ensures r.added == 0 ==> r.store == s
    ensures Extends(s, r.store)
    ensures |r.store.outcomes| == |s.outcomes| + r.added
    ensures forall mid | mid in s.markets && !HasOutcomes(s, mid) :: GainedPair(s, r.store, mid)
    ensures forall mid | HasOutcomes(s, mid) :: Added(s, r.store, mid) == {}
    ensures forall mid | mid in s.markets :: HasOutcomes(r.store, mid)
    ensures forall oid | oid in r.store.outcomes && oid !in s.outcomes ::
              r.store.outcomes[oid].marketId in s.markets && SeedRow(r.store.outcomes[oid], oid, s.clock)
  {
    var run := SeedOutcomesLoop(s, order);
    assert LoopDone(s, order, run);
    assert Bare(s, order) == set mid | mid in s.markets && !HasOutcomes(s, mid);
    if run.added > 0 then run else SeedRun(0, s)
  }

  /** Running `seed_outcomes.py` a second time adds nothing and commits nothing. */
  lemma SeedOutcomesIdempotent(s: Store, order: seq<string>)
    requires Distinct(order)
    requires forall i | 0 <= i < |order| :: order[i] in s.markets
    requires forall id | id in s.markets :: id in order
    ensures var first := SeedOutcomes(s, order);
      SeedOutcomes(first.store, order) == SeedRun(0, first.store)
  {
    var first := SeedOutcomes(s, order);
    assert (set mid | mid in first.store.markets && !HasOutcomes(first.store, mid)) == {};
  }

  /** A seeded row sits under its own id and has a non-blank label. */
  lemma SeedRowWellFormed(o: Outcome, id: string, now: DateTime)
    requires SeedRow(o, id, now)
    ensures o.id == id && NonBlank(o.labelText)
  {
    assert !IsWs('Y') && !IsWs('N');
    assert o.labelText[0] == 'Y' || o.labelText[0] == 'N';
  }

  /** Seeding outcomes keeps the store valid: each new outcome belongs to an existing market. */
  lemma SeedOutcomesValid(s: Store, order: seq<string>)
    requires Valid(s)
    requires Distinct(order)
    requires forall i | 0 <= i < |order| :: order[i] in s.markets
    requires forall id | id in s.markets :: id in order
    ensures Valid(SeedOutcomes(s, order).store)
  {
    var r := SeedOutcomes(s, order);
    forall oid | oid in r.store.outcomes && oid !in s.outcomes
      ensures r.store.outcomes[oid].id == oid && NonBlank(r.store.outcomes[oid].labelText)
    {
      SeedRowWellFormed(r.store.outcomes[oid], oid, s.clock);
    }
  }
}

=== FILE: text.dfy ===
/**
 * The two string primitives the service relies on: Python's argument-less
 * `str.strip()` and `str.split(sep)` for a one-character separator.
 */
module Text {

  /**
   * Python's `str.isspace` for one character: the code points that
   * `str.strip()` removes when called without arguments.
   */
  predicate IsWs(c: char) {
    var n := c as int;
    || 9 <= n <= 13
    || 28 <= n <= 32
    || n == 0x85
    || n == 0xA0
    || n == 0x1680
    || 0x2000 <= n <= 0x200A
    || n == 0x2028
    || n == 0x2029
    || n == 0x202F
    || n == 0x205F
    || n == 0x3000
  }

  predicate AllWs(s: string) {
    forall i | 0 <= i < |s| :: IsWs(s[i])
  }

  /** Neither the first nor the last character is white space. */
  predicate Edgeless(s: string) {
    s == [] || (!IsWs(s[0]) && !IsWs(s[|s| - 1]))
  }

  /** Drops the leading white space: what remains is a suffix that is empty or starts with a non-space. */
  function TrimLeft(s: string): (r: string)
    ensures |r| <= |s| && r == s[|s| - |r|..]
    ensures AllWs(s[..|s| - |r|])
    ensures r == [] || !IsWs(r[0])
  {
    if |s| > 0 && IsWs(s[0]) then
      var r := TrimLeft(s[1..]);
      assert s[..|s| - |r|] == [s[0]] + s[1..][..|s| - 1 - |r|];
      r
    else
      s
  }

  /** Drops the trailing white space: what remains is a prefix that is empty or ends with a non-space. */
  function TrimRight(s: string): (r: string)
    ensures |r| <= |s| && r == s[..|r|]
    ensures AllWs(s[|r|..])
    ensures r == [] || !IsWs(r[|r| - 1])
  {
    if |s| > 0 && IsWs(s[|s| - 1]) then
      var r := TrimRight(s[..|s| - 1]);
      assert s[|r|..] == s[..|s| - 1][|r|..] + [s[|s| - 1]];
      r
    else
      s
  }

  /**
   * `s` is `r` surrounded by white space only, and `r` has no white space at
   * either end: the relation `str.strip()` computes.
   */
  ghost predicate StripsTo(s: string, r: string) {
    exists i, j | 0 <= i <= j <= |s| :: r == s[i..j] && AllWs(s[..i]) && AllWs(s[j..]) && Edgeless(r)
  }

  /** Python's `str.strip()` with no arguments. */
  function Strip(s: string): (r: string)
    ensures Edgeless(r)
    ensures |r| <= |s|
  {
    var l := TrimLeft(s);
    var r := TrimRight(l);
    assert r != [] ==> r[0] == l[0];
    r
  }

  /** `Strip` computes the strip relation: it removes white space at both ends and nothing else. */
  lemma StripComputes(s: string)
    ensures StripsTo(s, Strip(s))
  {
    var l := TrimLeft(s);
    var r := TrimRight(l);
    var i := |s| - |l|;
    assert r == s[i..i + |r|];
    assert s[i + |r|..] == l[|r|..];
  }

  /** Every character of a stripped string comes from the original. */
  lemma StripChars(s: string)
    ensures forall k | 0 <= k < |Strip(s)| :: Strip(s)[k] in s
  {
    var l := TrimLeft(s);
    var r := TrimRight(l);
    var i := |s| - |l|;
    forall k | 0 <= k < |r| ensures r[k] in s {
      assert r[k] == s[i + k];
    }
  }

  /** There is only one string a given string strips to. */
  lemma {:induction false} StripsToUnique(s: string, r1: string, r2: string)
    requires StripsTo(s, r1) && StripsTo(s, r2)
    ensures r1 == r2
  {
    var i1, j1 :| 0 <= i1 <= j1 <= |s| && r1 == s[i1..j1] && AllWs(s[..i1]) && AllWs(s[j1..]) && Edgeless(r1);
    var i2, j2 :| 0 <= i2 <= j2 <= |s| && r2 == s[i2..j2] && AllWs(s[..i2]) && AllWs(s[j2..]) && Edgeless(r2);
    CutsAgree(s, i1, j1, i2, j2);
    CutsAgree(s, i2, j2, i1, j1);
  }

  /** If the first cut keeps something, the second cut keeps exactly the same. */
  lemma CutsAgree(s: string, i1: nat, j1: nat, i2: nat, j2: nat)
    requires i1 <= j1 <= |s| && AllWs(s[..i1]) && AllWs(s[j1..]) && Edgeless(s[i1..j1])
    requires i2 <= j2 <= |s| && AllWs(s[..i2]) && AllWs(s[j2..]) && Edgeless(s[i2..j2])
    ensures i1 < j1 ==> s[i1..j1] == s[i2..j2]
  {
    if i1 < j1 {
      assert s[i1..j1][0] == s[i1] && s[i1..j1][j1 - i1 - 1] == s[j1 - 1];
      PrefixWsAt(s, i2, i1);
      PrefixWsAt(s, i2, j1 - 1);
      SuffixWsAt(s, j2, i1);
      SuffixWsAt(s, j2, j1 - 1);
      assert i2 < j2;
      assert s[i2..j2][0] == s[i2] && s[i2..j2][j2 - i2 - 1] == s[j2 - 1];
      PrefixWsAt(s, i1, i2);
      SuffixWsAt(s, j1, j2 - 1);
      assert i1 == i2 && j1 == j2;
    }
  }

  /** Every character before a white-space prefix cut is white space. */
  lemma PrefixWsAt(s: string, i: nat, k: nat)
    requires i <= |s| && AllWs(s[..i]) && k < |s|
    ensures k < i ==> IsWs(s[k])
  {
    if k < i { assert s[..i][k] == s[k]; }
  }

  /** Every character after a white-space suffix cut is white space. */
  lemma SuffixWsAt(s: string, j: nat, k: nat)
    requires j <= |s| && AllWs(s[j..]) && k < |s|
    ensures j <= k ==> IsWs(s[k])
  {
    if j <= k { assert s[j..][k - j] == s[k]; }
  }

  /** White space up to a cut and from the same cut on covers the whole string. */
  lemma AllWsFromCut(s: string, i: nat, j: nat)
    requires i <= j <= |s| && AllWs(s[..i]) && AllWs(s[j..])
    ensures i == j ==> AllWs(s)
  {
    forall k | 0 <= k < |s| ensures i == j ==> IsWs(s[k]) {
      PrefixWsAt(s, i, k);
      SuffixWsAt(s, j, k);
    }
  }

  /** A string strips to nothing exactly when it is all white space. */
  lemma {:induction false} StripEmptyIff(s: string)
    ensures Strip(s) == [] <==> AllWs(s)
  {
    if AllWs(s) {
      assert StripsTo(s, []) by {
        assert [] == s[0..0] && s[..0] == [] && s[0..] == s;
      }
      StripComputes(s);
      StripsToUnique(s, Strip(s), []);
    } else {
      StripComputes(s);
      var r := Strip(s);
      var i, j :| 0 <= i <= j <= |s| && r == s[i..j] && AllWs(s[..i]) && AllWs(s[j..]) && Edgeless(r);
      AllWsFromCut(s, i, j);
    }
  }

  /** Stripping twice is stripping once. */
  lemma {:induction false} StripIdempotent(s: string)
    ensures Strip(Strip(s)) == Strip(s)
  {
    StripEdgeless(Strip(s));
  }

  /** An edgeless string is its own strip. */
  lemma StripEdgeless(s: string)
    requires Edgeless(s)
    ensures Strip(s) == s
  {
    assert StripsTo(s, s) by {
      assert s == s[0..|s|] && s[..0] == [] && s[|s|..] == [];
    }
    StripComputes(s);
    StripsToUnique(s, Strip(s), s);
  }

  /** Python's `str.split(sep)`: the pieces between separators, left to right. */
  function Split(s: string, sep: char): (r: seq<string>)
    ensures |r| >= 1
    ensures forall i | 0 <= i < |r| :: sep !in r[i]
  {
    if |s| == 0 then
      [""]
    else
      var rest := Split(s[1..], sep);
      if s[0] == sep then
        [""] + rest
      else
        [[s[0]] + rest[0]] + rest[1..]
  }

  /** Python's `sep.join(pieces)`. */
  function Join(pieces: seq<string>, sep: char): string
    requires |pieces| >= 1
  {
    if |pieces| == 1 then pieces[0] else pieces[0] + [sep] + Join(pieces[1..], sep)
  }

  /** A string without the separator is one piece. */
  lemma {:induction false} SplitNoSep(s: string, sep: char)
    requires sep !in s
    ensures Split(s, sep) == [s]
  {
    if |s| > 0 {
      SplitNoSep(s[1..], sep);
      assert s == [s[0]] + s[1..];
    }
  }

  /** Splitting one character in front of `t` either opens a new first piece or extends it. */
  lemma SplitCons(c: char, t: string, sep: char)
    ensures Split([c] + t, sep) == if c == sep then [""] + Split(t, sep) else [[c] + Split(t, sep)[0]] + Split(t, sep)[1..]
  {
    assert ([c] + t)[1..] == t;
  }

  /** Joining the pieces of a split gives the string back. */
  lemma {:induction false} JoinSplit(s: string, sep: char)
    ensures Join(Split(s, sep), sep) == s
  {
    if |s| > 0 {
      JoinSplit(s[1..], sep);
      SplitCons(s[0], s[1..], sep);
      assert s == [s[0]] + s[1..];
      var rest := Split(s[1..], sep);
      if s[0] != sep {
        var r := [[s[0]] + rest[0]] + rest[1..];
        assert r[1..] == rest[1..];
      }
    }
  }

  /** Splitting `a + sep + b` splits `a` and `b` independently, in that order. */
  lemma {:induction false} SplitAppend(a: string, b: string, sep: char)
    ensures Split(a + [sep] + b, sep) == Split(a, sep) + Split(b, sep)
  {
    if |a| == 0 {
      assert a + [sep] + b == [sep] + b;
      SplitCons(sep, b, sep);
    } else {
      var t := a[1..] + [sep] + b;
      assert a + [sep] + b == [a[0]] + t;
      assert a == [a[0]] + a[1..];
      SplitAppend(a[1..], b, sep);
      SplitCons(a[0], t, sep);
      SplitCons(a[0], a[1..], sep);
      ConsPieces(a[0], sep, Split(a[1..], sep), Split(b, sep));
    }
  }

  /** The piece list step of `SplitCons` commutes with appending further pieces. */
  lemma ConsPieces(c: char, sep: char, ra: seq<string>, rb: seq<string>)
    requires |ra| >= 1
    ensures (if c == sep then [""] + (ra + rb) else [[c] + (ra + rb)[0]] + (ra + rb)[1..])
         == (if c == sep then [""] + ra else [[c] + ra[0]] + ra[1..]) + rb
  {
    if c != sep {
      assert (ra + rb)[0] == ra[0];
      assert (ra + rb)[1..] == ra[1..] + rb;
    }
  }

  /** Joining pieces free of the separator and splitting again gives the pieces back. */
  lemma {:induction false} SplitJoin(pieces: seq<string>, sep: char)
    requires |pieces| >= 1
    requires forall i | 0 <= i < |pieces| :: sep !in pieces[i]
    ensures Split(Join(pieces, sep), sep) == pieces
  {
    if |pieces| == 1 {
      SplitNoSep(pieces[0], sep);
    } else {
      SplitJoin(pieces[1..], sep);
      SplitAppend(pieces[0], Join(pieces[1..], sep), sep);
      SplitNoSep(pieces[0], sep);
      assert pieces == [pieces[0]] + pieces[1..];
    }
  }
}

=== FILE: wrappers.dfy ===
/** Optional values: a nullable column, an absent dictionary entry, a failed parse. */
module Wrappers {

  datatype Option<+T> = None | Some(value: T) {

    /** Python's `x or default` for a value that is either present or `None`. */
    function OrElse(fallback: T): (r: T)
      ensures this.Some? ==> r == value
      ensures this.None? ==> r == fallback
    {
      if this.Some? then value else fallback
    }
  }
}
